=== FILE: README.md ===
# JeremyAnsel.IO.Locator in Dafny

The library gives uniform access to files kept in a directory, an archive, a
disc image or memory. Every locator can say whether a path exists, open it,
and enumerate the files under a root. Writable locators can also create and
write files. This project models the library's core and proves what it
promises:

- **Path algebra** (`Paths`, `DiscPaths`):
  - the relative normalization used by the archive and memory locators;
  - its case-insensitive equality and literal prefix test;
  - the extension queries the factories dispatch on;
  - the rooted normalization of the disc locators.
- **MemoryFileLocator** (`MemoryStore`): an insertion-ordered dictionary from
  normalized path to bytes.
- **ArchiveFileLocator** (`ArchiveView`): a read view over an archive's entry
  list, with its two-resource Dispose.
- **ArchiveWritableFileLocator** (`ArchiveWriter`):
  - a set of used keys guarding an append-only log of written entries;
  - the staging constructor, which copies an existing archive into memory and
    replays it;
  - Dispose.
- **Locators**: the read interface as a tagged union of the memory and archive
  locators. It holds WriteAll, which copies one locator into another, and the
  layered archive constructor.
- **The three factories** (`FileLocatorFactory`, `WritableFileLocatorFactory`,
  `DiscFileLocatorFactory`): each is a pure dispatch function returning a
  `Result`.

## Conventions

- **Host conventions are a parameter**, `Paths.Platform(sep, alt, fold, lower)`:
  - the directory separator and the alternate separator, which may be equal;
  - the per-character map behind `OrdinalIgnoreCase`;
  - the per-character `ToLowerInvariant`.
  `Windows` and `Unix` with ASCII maps are used only in example lemmas.
- **Null strings** are modelled as `""` wherever the code treats the two alike.
  Where the code tells them apart, the model uses `Option`. This covers null
  data, null locators, null streams, and the layered factory's root.
- **Exceptions** become `Err(e)`. A mutating call returns `Step(state, status)`,
  where `state` is what the object holds after the call, including after an
  exception.
- **The archive codec is abstract.** An opened archive is its entry sequence,
  and the writer is its log. Codec calls that can fail are function
  parameters returning a `Result`. The disc detectors are function
  parameters too.

## Model

| member | source | states |
|---|---|---|
| Paths.Normalize | JeremyAnsel.IO.Locator/JeremyAnsel.IO.Locator/Utilities.cs:23-33 | null or "" gives ""; the result never starts with the separator and is no longer than the input |
| Paths.NormalizeMatchesSource | JeremyAnsel.IO.Locator/JeremyAnsel.IO.Locator/Utilities.cs:23-33 | normalization is exactly: replace the alternate separator, then trim the leading separators |
| Paths.NormalizeShape | JeremyAnsel.IO.Locator/JeremyAnsel.IO.Locator/Utilities.cs:30-32 | the result is a suffix of the input with alternates replaced; only leading separators are dropped; no alternate separator remains when it differs from the primary |
| Paths.NormalizeUnique | JeremyAnsel.IO.Locator/JeremyAnsel.IO.Locator/Utilities.cs:30-32 | any string with that shape is the normal form, so the shape characterises normalization |
| Paths.NormalFormIff | JeremyAnsel.IO.Locator/JeremyAnsel.IO.Locator/Utilities.cs:30-32 | a string is its own normal form iff it has no leading separator and no alternate separator |
| Paths.NormalizeIdempotent | JeremyAnsel.IO.Locator/JeremyAnsel.IO.Locator/Utilities.cs:23-33 | normalizing twice is normalizing once |
| Paths.SeparatorsOnlyNormalizeEmpty | JeremyAnsel.IO.Locator/JeremyAnsel.IO.Locator/Utilities.cs:30-32 | a path of separators only normalizes to "" |
| Paths.PathEqualsMeaning | JeremyAnsel.IO.Locator/JeremyAnsel.IO.Locator/Utilities.cs:41-47 | PathEquals holds iff the normal forms have equal length and agree character by character under the case map |
| Paths.PathEqualsEquivalence | JeremyAnsel.IO.Locator/JeremyAnsel.IO.Locator/Utilities.cs:41-47 | PathEquals is reflexive, symmetric and transitive |
| Paths.PathEqualsNormalizeLeft | JeremyAnsel.IO.Locator/JeremyAnsel.IO.Locator/Utilities.cs:41-47 | comparing against a pre-normalized path changes nothing |
| Paths.PathStartsWithMeaning | JeremyAnsel.IO.Locator/JeremyAnsel.IO.Locator/Utilities.cs:55-61 | PathStartsWith holds iff the normalized prefix is a character prefix of the normalized path under the case map |
| Paths.PathStartsWithNormalizeLeft | JeremyAnsel.IO.Locator/JeremyAnsel.IO.Locator/Utilities.cs:55-61 | testing a pre-normalized path changes nothing |
| Paths.PathStartsWithEmptyRoot | JeremyAnsel.IO.Locator/JeremyAnsel.IO.Locator/Utilities.cs:55-61 | the empty root selects every path |
| Paths.PathEqualsImpliesStartsWith | JeremyAnsel.IO.Locator/JeremyAnsel.IO.Locator/Utilities.cs:41-61 | equal paths are prefixes of each other |
| Paths.PathStartsWithIsLiteralExample | JeremyAnsel.IO.Locator/JeremyAnsel.IO.Locator/Utilities.cs:55-61 | the prefix test ignores segment boundaries: "abc/x" starts with "ab" |
| Paths.PathEqualsIgnoresCaseExample | JeremyAnsel.IO.Locator/JeremyAnsel.IO.Locator/Utilities.cs:41-47 | "/A/b.txt" and "a\\B.TXT" are equal on a Windows host |
| Paths.IsPrefixMeaning | JeremyAnsel.IO.Locator/JeremyAnsel.IO.Locator/Utilities.cs:60 | the ordinal StartsWith test is "take the first n characters and compare" |
| Paths.SelectUnder | JeremyAnsel.IO.Locator/JeremyAnsel.IO.Locator/MemoryFileLocator.cs:98-104 | the root filter keeps exactly the keys that pass PathStartsWith |
| Paths.SelectUnderAppend | JeremyAnsel.IO.Locator/JeremyAnsel.IO.Locator/MemoryFileLocator.cs:98-104 | filtering keeps order: an appended key is appended to the selection iff it passes |
| Paths.Extension | JeremyAnsel.IO.Locator/JeremyAnsel.IO.Locator/WritableFileLocatorFactory.cs:37 | the extension is "" or a suffix of length at least 2 that starts with '.' and contains no further '.' or separator |
| Paths.HasExtensionIffExtension | JeremyAnsel.IO.Locator/JeremyAnsel.IO.Locator/FileLocatorFactory.cs:33 | HasExtension holds exactly when GetExtension is non-empty, so the two factories use one notion |
| Paths.HasExtensionMeaning | JeremyAnsel.IO.Locator/JeremyAnsel.IO.Locator/FileLocatorFactory.cs:33 | a path has an extension iff some '.' that is not its last character has no '.' or separator after it |
| Paths.LowerPointwise | JeremyAnsel.IO.Locator/JeremyAnsel.IO.Locator/WritableFileLocatorFactory.cs:41 | lower-casing is the per-character map |
| DiscPaths.Normalize | JeremyAnsel.IO.Locator/JeremyAnsel.IO.DiscLocator/Utilities.cs:23-34 | "" gives "", never the root; otherwise exactly one leading separator, and the result is at most one character longer than the input |
| DiscPaths.NormalizeMatchesSource | JeremyAnsel.IO.Locator/JeremyAnsel.IO.DiscLocator/Utilities.cs:30-33 | the rooted form is the separator inserted before the relative pipeline's result |
| DiscPaths.NoAlternateSeparator | JeremyAnsel.IO.Locator/JeremyAnsel.IO.DiscLocator/Utilities.cs:30-33 | no alternate separator survives |
| DiscPaths.NormalizeIdempotent | JeremyAnsel.IO.Locator/JeremyAnsel.IO.DiscLocator/Utilities.cs:23-34 | rooted normalization is idempotent |
| DiscPaths.SeparatorsOnlyNormalizeRoot | JeremyAnsel.IO.Locator/JeremyAnsel.IO.DiscLocator/Utilities.cs:30-33 | a non-empty path of separators only gives the root, a single separator |
| DiscPaths.SameRootedIffSameRelative | JeremyAnsel.IO.Locator/JeremyAnsel.IO.DiscLocator/Utilities.cs:23-34 | two non-empty paths have the same rooted form iff they have the same relative form |
| MemoryStore.New | JeremyAnsel.IO.Locator/JeremyAnsel.IO.Locator/MemoryFileLocator.cs:27-30 | a new store is empty and valid |
| MemoryStore.IsEmptyIffNoKey | JeremyAnsel.IO.Locator/JeremyAnsel.IO.Locator/MemoryFileLocator.cs:35-41 | IsEmpty holds iff no path exists |
| MemoryStore.Clear | JeremyAnsel.IO.Locator/JeremyAnsel.IO.Locator/MemoryFileLocator.cs:54-57 | Clear leaves the store empty |
| MemoryStore.Open | JeremyAnsel.IO.Locator/JeremyAnsel.IO.Locator/MemoryFileLocator.cs:64-80 | Open succeeds iff Exists; it then returns the bytes stored under the normalized path, and otherwise fails with KeyNotFoundException |
| MemoryStore.EnumerateFiles | JeremyAnsel.IO.Locator/JeremyAnsel.IO.Locator/MemoryFileLocator.cs:96-105 | yields exactly the stored keys that pass PathStartsWith against the root |
| MemoryStore.EnumerateAll | JeremyAnsel.IO.Locator/JeremyAnsel.IO.Locator/MemoryFileLocator.cs:86-89 | EnumerateFiles() yields every key in insertion order |
| MemoryStore.Create | JeremyAnsel.IO.Locator/JeremyAnsel.IO.Locator/MemoryFileLocator.cs:111-126 | succeeds iff the normalized path is new, and then appends it with zero bytes; a used key throws ArgumentOutOfRangeException and changes nothing |
| MemoryStore.Write | JeremyAnsel.IO.Locator/JeremyAnsel.IO.Locator/MemoryFileLocator.cs:133-158 | null data throws ArgumentNullException first; a used key throws ArgumentOutOfRangeException; neither changes the store; otherwise the bytes are appended under the normalized path |
| MemoryStore.StoreKeepsOtherPaths | JeremyAnsel.IO.Locator/JeremyAnsel.IO.Locator/MemoryFileLocator.cs:111-158 | Create and Write leave every other normalized path as it was |
| MemoryStore.StoreKeepsValid | JeremyAnsel.IO.Locator/JeremyAnsel.IO.Locator/MemoryFileLocator.cs:111-158 | Create and Write keep the keys normalized and distinct |
| MemoryStore.EnumerateAfterStore | JeremyAnsel.IO.Locator/JeremyAnsel.IO.Locator/MemoryFileLocator.cs:96-158 | enumeration keeps insertion order: the key of a successful Create, or of a Write with data, comes last in every enumeration whose root it matches, and nothing else changes |
| MemoryStore.WriteThenOpen | JeremyAnsel.IO.Locator/JeremyAnsel.IO.Locator/MemoryFileLocator.cs:74-80 | round trip: Open returns what Write stored, and [] for what Create made |
| MemoryStore.ExistsIsCaseSensitive | JeremyAnsel.IO.Locator/JeremyAnsel.IO.Locator/MemoryFileLocator.cs:64-67 | keys compare exactly: after creating "a", "A" does not exist |
| MemoryStore.CreateTwoInOrder | JeremyAnsel.IO.Locator/JeremyAnsel.IO.Locator/MemoryFileLocator.cs:111-126 | creating two distinct normalized paths in a new store passes twice and enumerates them in creation order |
| MemoryStore.CreateTwoThenEnumerate | JeremyAnsel.IO.Locator/JeremyAnsel.IO.Locator.Tests/MemoryFileLocatorTests.cs:31-68 | after creating "test1" and "test2", the store enumerates them in that order and both exist |
| MemoryStore.CreateEmptyPathIsStored | JeremyAnsel.IO.Locator/JeremyAnsel.IO.Locator/MemoryFileLocator.cs:113-125 | as written, Create("") succeeds and stores the key "" |
| MemoryStore.CreateChecked | JeremyAnsel.IO.Locator/JeremyAnsel.IO.Locator.Tests/MemoryFileLocatorTests.cs:45-49 | with the guard on the argument, "" throws ArgumentNullException and any other path behaves as Create |
| MemoryStore.CreateCheckedRejectsEmptyPath | JeremyAnsel.IO.Locator/JeremyAnsel.IO.Locator.Tests/MemoryFileLocatorTests.cs:45-49 | the corrected Create and Write reject "" for every store and change nothing |
| ArchiveView.Exists | JeremyAnsel.IO.Locator/JeremyAnsel.IO.Locator/ArchiveFileLocator.cs:91-112 | "" gives false; otherwise true iff some non-directory entry's key is PathEquals to the path; fails once disposed |
| ArchiveView.Open | JeremyAnsel.IO.Locator/JeremyAnsel.IO.Locator/ArchiveFileLocator.cs:119-140 | "" throws ArgumentNullException; otherwise returns the content of the first matching file entry, or throws FileNotFoundException when none matches |
| ArchiveView.OpenIffExists | JeremyAnsel.IO.Locator/JeremyAnsel.IO.Locator/ArchiveFileLocator.cs:91-140 | for a non-empty path, Open succeeds iff Exists is true |
| ArchiveView.ListFiles | JeremyAnsel.IO.Locator/JeremyAnsel.IO.Locator/ArchiveFileLocator.cs:156-170 | every yielded path is a normal form that passes PathStartsWith; every file entry under the root yields its normalized key |
| ArchiveView.ListFilesAppend | JeremyAnsel.IO.Locator/JeremyAnsel.IO.Locator/ArchiveFileLocator.cs:156-170 | one yield per matching file entry, in entry order: no entries yield nothing, and an appended entry adds its normalized key at the end exactly when it is a file under the root |
| ArchiveView.ListFilesSource | JeremyAnsel.IO.Locator/JeremyAnsel.IO.Locator/ArchiveFileLocator.cs:156-170 | every yielded path is the normalized key of some file entry |
| ArchiveView.EnumerateFiles | JeremyAnsel.IO.Locator/JeremyAnsel.IO.Locator/ArchiveFileLocator.cs:146-170 | fails iff disposed; yields only normal forms under the root, and the normalized key of every file entry under it |
| ArchiveView.ListFilesUnderRoot | JeremyAnsel.IO.Locator/JeremyAnsel.IO.Locator/ArchiveFileLocator.cs:146-170 | EnumerateFiles(root) is EnumerateFiles("") filtered by the root, in order |
| ArchiveView.DirectoriesInvisible | JeremyAnsel.IO.Locator/JeremyAnsel.IO.Locator/ArchiveFileLocator.cs:100-103 | dropping the directory entries changes neither the enumeration nor which entry a lookup finds |
| ArchiveView.Dispose | JeremyAnsel.IO.Locator/JeremyAnsel.IO.Locator/ArchiveFileLocator.cs:69-84 | Dispose releases the borrowed stream (if any) before the archive, each held resource exactly once, and clears both |
| ArchiveView.DisposeIdempotent | JeremyAnsel.IO.Locator/JeremyAnsel.IO.Locator/ArchiveFileLocator.cs:69-84 | a second Dispose releases nothing |
| ArchiveView.DisposedFails | JeremyAnsel.IO.Locator/JeremyAnsel.IO.Locator/ArchiveFileLocator.cs:91-170 | after Dispose, Exists("") is still false and every other lookup throws NullReferenceException |
| ArchiveView.ExistsIsCaseInsensitive | JeremyAnsel.IO.Locator/JeremyAnsel.IO.Locator/ArchiveFileLocator.cs:105 | an entry "/A/b.txt" is found as "a\\B.TXT" on a Windows host |
| Locators.OpenImpliesExists | JeremyAnsel.IO.Locator/JeremyAnsel.IO.Locator/IFileLocator.cs:17-45 | on every locator, a path that opens exists |
| Locators.EnumeratedFilesOpen | JeremyAnsel.IO.Locator/JeremyAnsel.IO.Locator/IFileLocator.cs:17-45 | every non-empty path a locator enumerates can be opened on it |
| Locators.OpenEachOpens | JeremyAnsel.IO.Locator/JeremyAnsel.IO.Locator/MemoryFileLocator.cs:181-187 | each enumerated file is paired with what the source opens for it |
| Locators.WriteFiles | JeremyAnsel.IO.Locator/JeremyAnsel.IO.Locator/MemoryFileLocator.cs:181-187 | the files are written in order; the first failure stops the loop, keeps the earlier writes and reports that file's open error or its used key |
| Locators.MemoryWriteAll | JeremyAnsel.IO.Locator/JeremyAnsel.IO.Locator/MemoryFileLocator.cs:164-188 | a null locator throws ArgumentNullException; otherwise it copies the enumeration of the root, in order, as WriteFiles does |
| Locators.MemoryWriteAllCopies | JeremyAnsel.IO.Locator/JeremyAnsel.IO.Locator/MemoryFileLocator.cs:164-188 | after WriteAll the store holds the old entries followed by the enumerated files, each under its normalized path with the bytes opened for it; it passes iff every file was written, and a failure names the file it stopped at and why |
| Locators.MemoryWriteAllKeepsValid | JeremyAnsel.IO.Locator/JeremyAnsel.IO.Locator/MemoryFileLocator.cs:164-188 | the copy keeps the store's keys normalized and distinct |
| Locators.CopyIntoEmptyIsIdentity | JeremyAnsel.IO.Locator/JeremyAnsel.IO.Locator/MemoryFileLocator.cs:164-188 | copying a store into a new store reproduces it entry for entry, in order, without failure |
| Locators.CopyNeverCollides | JeremyAnsel.IO.Locator/JeremyAnsel.IO.Locator/MemoryFileLocator.cs:181-187 | while copying a store, the next key is never already copied |
| Locators.OpenLayered | JeremyAnsel.IO.Locator/JeremyAnsel.IO.Locator/ArchiveFileLocator.cs:34-55 | with a parent, the archive is decoded from what the parent opens, and that stream is kept; without one, the archive file at the host path is opened; the parent's open failure, the codec's decode failure and the host's failure each propagate with their own error |
| Locators.LayeredDisposeOrder | JeremyAnsel.IO.Locator/JeremyAnsel.IO.Locator/ArchiveFileLocator.cs:44-84 | a layered view releases the borrowed stream and then the archive; a host-path view releases only the archive |
| ArchiveWriter.OpenOnStream | JeremyAnsel.IO.Locator/JeremyAnsel.IO.Locator/ArchiveWritableFileLocator.cs:82-87 | the stream constructor starts with no keys and no file stream, and is valid |
| ArchiveWriter.Create | JeremyAnsel.IO.Locator/JeremyAnsel.IO.Locator/ArchiveWritableFileLocator.cs:113-136 | "" throws ArgumentNullException, a normalized key equal to a used one ArgumentOutOfRangeException (exact equality; see Left out), and a disposed writer NullReferenceException, each changing nothing; otherwise the one-byte placeholder [0] is logged under the normalized key |
| ArchiveWriter.Write | JeremyAnsel.IO.Locator/JeremyAnsel.IO.Locator/ArchiveWritableFileLocator.cs:143-164 | the path is checked, then the data, then the key (exact equality; see Left out), then the writer; on success the data is logged under the normalized key |
| ArchiveWriter.StoreKeepsValid | JeremyAnsel.IO.Locator/JeremyAnsel.IO.Locator/ArchiveWritableFileLocator.cs:113-164 | the key set stays equal to the set of logged keys, with logged keys distinct and normalized |
| ArchiveWriter.WriteFiles | JeremyAnsel.IO.Locator/JeremyAnsel.IO.Locator/ArchiveWritableFileLocator.cs:187-193 | files are written in order; the first failure stops the loop and keeps earlier writes, naming the failing file's cause |
| ArchiveWriter.WriteAll | JeremyAnsel.IO.Locator/JeremyAnsel.IO.Locator/ArchiveWritableFileLocator.cs:170-194 | a null locator throws ArgumentNullException; otherwise the root's enumeration is written in order |
| ArchiveWriter.WriteAllCopies | JeremyAnsel.IO.Locator/JeremyAnsel.IO.Locator/ArchiveWritableFileLocator.cs:170-194 | after WriteAll the log is the old log followed by the enumerated files, each under its normalized path with the bytes opened for it; the handles are unchanged; it passes iff every file was written, and a failure names the file it stopped at and why |
| ArchiveWriter.WriteAllKeepsValid | JeremyAnsel.IO.Locator/JeremyAnsel.IO.Locator/ArchiveWritableFileLocator.cs:170-194 | WriteAll keeps the writer valid |
| ArchiveWriter.OpenAt | JeremyAnsel.IO.Locator/JeremyAnsel.IO.Locator/ArchiveWritableFileLocator.cs:42-74 | a missing or empty file gives an empty writer; an unreadable archive propagates its error; any result is valid and holds the writer, the file stream and the configuration |
| ArchiveWriter.StageReadsLog | JeremyAnsel.IO.Locator/JeremyAnsel.IO.Locator/ArchiveWritableFileLocator.cs:46-63 | staging an archive that holds a valid log copies it into memory entry for entry |
| ArchiveWriter.ReplayWritesLog | JeremyAnsel.IO.Locator/JeremyAnsel.IO.Locator/ArchiveWritableFileLocator.cs:69-72 | replaying the staged store into a new writer logs the same entries in the same order, for any valid log with non-empty keys, including keys equal only under PathEquals |
| ArchiveWriter.Restage | JeremyAnsel.IO.Locator/JeremyAnsel.IO.Locator/ArchiveWritableFileLocator.cs:42-74 | reopening an archive for writing keeps its contents: the new writer's log is the old one |
| ArchiveWriter.ListFilesOfLog | JeremyAnsel.IO.Locator/JeremyAnsel.IO.Locator/ArchiveFileLocator.cs:156-170 | reading back a written archive enumerates its keys in write order |
| ArchiveWriter.FirstSession | JeremyAnsel.IO.Locator/JeremyAnsel.IO.Locator.Tests/FileLocatorTests.cs:26-31 | a session on a new archive that creates one file logs just that file, and reopening the archive gives back that log |
| ArchiveWriter.TwoSessions | JeremyAnsel.IO.Locator/JeremyAnsel.IO.Locator.Tests/FileLocatorTests.cs:26-37 | two sessions that each create one file leave both files, first session first, and the reader counts 2 |
| ArchiveWriter.Dispose | JeremyAnsel.IO.Locator/JeremyAnsel.IO.Locator/ArchiveWritableFileLocator.cs:92-107 | Dispose releases the writer and then the file stream, each held handle exactly once, and keeps the keys and log |
| ArchiveWriter.DisposeIdempotent | JeremyAnsel.IO.Locator/JeremyAnsel.IO.Locator/ArchiveWritableFileLocator.cs:92-107 | a second Dispose releases nothing |
| ArchiveWriter.CreateAfterDispose | JeremyAnsel.IO.Locator/JeremyAnsel.IO.Locator/ArchiveWritableFileLocator.cs:127-133 | after Dispose, a Create that passes the argument checks throws NullReferenceException and logs nothing |
| FileLocatorFactory.Create | JeremyAnsel.IO.Locator/JeremyAnsel.IO.Locator/FileLocatorFactory.cs:26-39 | "" throws ArgumentNullException; a root with an extension is the archive file there, never inspected for content; any other root is a host directory, and DirectoryNotFoundException when the host has no such directory (SystemFileLocator.cs:33-38) |
| FileLocatorFactory.CreateLayered | JeremyAnsel.IO.Locator/JeremyAnsel.IO.Locator/FileLocatorFactory.cs:47-65 | the null locator is reported before the null root; an extension gives an archive read through the parent, with the parent's open error or the codec's decode error propagated unchanged; otherwise a directory under it |
| FileLocatorFactory.CreateFromStream | JeremyAnsel.IO.Locator/JeremyAnsel.IO.Locator/FileLocatorFactory.cs:72-80 | a null stream throws ArgumentNullException; otherwise the result is always an archive view over the decoded stream |
| FileLocatorFactory.LayeredDispatchAgrees | JeremyAnsel.IO.Locator/JeremyAnsel.IO.Locator/FileLocatorFactory.cs:33-64 | host and layered dispatch pick the same kind, an archive iff GetExtension is non-empty |
| FileLocatorFactory.LayeredIgnoresHostDirectories | JeremyAnsel.IO.Locator/JeremyAnsel.IO.Locator/SystemFileLocator.cs:48-57 | a root without an extension that names no host directory throws DirectoryNotFoundException from the host factory but is a directory under the parent in the layered factory |
| FileLocatorFactory.LayeredAcceptsEmptyRoot | JeremyAnsel.IO.Locator/JeremyAnsel.IO.Locator/FileLocatorFactory.cs:28-57 | the layered factory accepts "" as a directory root where the host factory throws |
| FileLocatorFactory.ArchiveRootExample | JeremyAnsel.IO.Locator/JeremyAnsel.IO.Locator/FileLocatorFactory.cs:28-36 | a root ending in ".zip" whose file opens is an archive locator, whatever directories the host has |
| FileLocatorFactory.DottedDirectoryExample | JeremyAnsel.IO.Locator/JeremyAnsel.IO.Locator/FileLocatorFactory.cs:33-38 | a dot in a directory name or a trailing dot is not an extension: such a root is the directory locator if the directory exists and DirectoryNotFoundException otherwise |
| WritableFileLocatorFactory.Create | JeremyAnsel.IO.Locator/JeremyAnsel.IO.Locator/WritableFileLocatorFactory.cs:30-55 | "" throws ArgumentNullException; no extension gives a directory writer if the directory exists and DirectoryNotFoundException otherwise (SystemWritableFileLocator.cs:27-32); ".zip" and ".gz", in any case, give exactly what the staging constructor opens at the root with their configuration, success and error alike; any other extension throws NotSupportedException |
| WritableFileLocatorFactory.CreateArchiveAt | JeremyAnsel.IO.Locator/JeremyAnsel.IO.Locator/WritableFileLocatorFactory.cs:64-72 | "" throws ArgumentNullException; otherwise exactly what the staging constructor opens at the root with the type, the compression and the default level: an empty writer for a missing or empty file, the prior archive staged for an existing one, and its error for an unreadable one |
| WritableFileLocatorFactory.CreateArchiveAtLevel | JeremyAnsel.IO.Locator/JeremyAnsel.IO.Locator/WritableFileLocatorFactory.cs:81-89 | "" throws ArgumentNullException; otherwise exactly what the staging constructor opens at the root with the type, Deflate and the given level, success and error alike |
| WritableFileLocatorFactory.ReopenKeepsContent | JeremyAnsel.IO.Locator/JeremyAnsel.IO.Locator/WritableFileLocatorFactory.cs:64-72 | CreateArchive on a file that holds a valid, distinguishable log succeeds and starts from that log, so a reopened archive is appended to |
| WritableFileLocatorFactory.TwoPassesOnOneFile | JeremyAnsel.IO.Locator/JeremyAnsel.IO.Locator.Tests/FileLocatorTests.cs:26-37 | two CreateArchive passes on one file, each creating one file, both succeed, and reading the result counts 2 files |
| WritableFileLocatorFactory.CreateArchiveOn | JeremyAnsel.IO.Locator/JeremyAnsel.IO.Locator/WritableFileLocatorFactory.cs:98-106 | a null stream throws ArgumentNullException; otherwise an empty writer that owns no file stream |
| WritableFileLocatorFactory.CreateArchiveOnLevel | JeremyAnsel.IO.Locator/JeremyAnsel.IO.Locator/WritableFileLocatorFactory.cs:115-123 | as CreateArchiveOn, with Deflate and the given level |
| WritableFileLocatorFactory.ExtensionShortcuts | JeremyAnsel.IO.Locator/JeremyAnsel.IO.Locator/WritableFileLocatorFactory.cs:41-47 | Create on ".zip" is CreateArchive(root, Zip, BestCompression); on ".gz" it is CreateArchive(root, GZip, GZip) |
| WritableFileLocatorFactory.DirectoryIffNoExtension | JeremyAnsel.IO.Locator/JeremyAnsel.IO.Locator/WritableFileLocatorFactory.cs:37-54 | the writable and the read factory agree: a root is a directory exactly when it is non-empty, has no extension and names an existing directory; without the directory both throw DirectoryNotFoundException |
| WritableFileLocatorFactory.UpperCaseZipExample | JeremyAnsel.IO.Locator/JeremyAnsel.IO.Locator/WritableFileLocatorFactory.cs:41-44 | "A.ZIP" gives an empty Zip writer with BestCompression |
| WritableFileLocatorFactory.TarNotSupported | JeremyAnsel.IO.Locator/JeremyAnsel.IO.Locator/WritableFileLocatorFactory.cs:49-50 | ".tar" throws NotSupportedException |
| DiscFileLocatorFactory.Create | JeremyAnsel.IO.Locator/JeremyAnsel.IO.DiscLocator/DiscFileLocatorFactory.cs:27-45 | "" throws ArgumentNullException; an open failure propagates; otherwise the disc locator over the host file with ISO if its detector accepts a fresh stream, else UDF if its detector does, else NotSupportedException |
| DiscFileLocatorFactory.CreateLayered | JeremyAnsel.IO.Locator/JeremyAnsel.IO.DiscLocator/DiscFileLocatorFactory.cs:53-76 | the null locator is reported before the root, and "" is refused; an open failure through the parent propagates; otherwise the disc locator over the parent's file with the format detected on fresh streams, or NotSupportedException |
| DiscFileLocatorFactory.LayeredAgreesWithPath | JeremyAnsel.IO.Locator/JeremyAnsel.IO.DiscLocator/DiscFileLocatorFactory.cs:27-76 | when the parent opens the bytes the host file holds, the layered and path variants fail alike or assign the same format |
| DiscFileLocatorFactory.CreateFromStream | JeremyAnsel.IO.Locator/JeremyAnsel.IO.DiscLocator/DiscFileLocatorFactory.cs:83-103 | a null stream throws ArgumentNullException; ISO then UDF on the one stream, without a rewind between them; the winner's stream is rewound to 0 |
| DiscFileLocatorFactory.IsoFirst | JeremyAnsel.IO.Locator/JeremyAnsel.IO.DiscLocator/DiscFileLocatorFactory.cs:34-94 | an image the ISO detector accepts is ISO, whatever the UDF detector says, in the path, stream and layered variants |
| DiscFileLocatorFactory.StreamAgreesWithPath | JeremyAnsel.IO.Locator/JeremyAnsel.IO.DiscLocator/DiscFileLocatorFactory.cs:83-132 | when the ISO detector leaves a rejected stream at 0, the stream and path variants pick the same format |
| DiscFileLocatorFactory.NoRewindBetweenProbes | JeremyAnsel.IO.Locator/JeremyAnsel.IO.DiscLocator/DiscFileLocatorFactory.cs:90-100 | with a position-sensitive UDF detector, the path variant finds UDF where the stream variant refuses the same bytes |
| DiscFileLocatorFactory.UnrecognisedImageRefused | JeremyAnsel.IO.Locator/JeremyAnsel.IO.DiscLocator.Tests/DiscFileLocatorTests.cs:19-29 | an empty image that no detector accepts throws NotSupportedException in all three variants |

## Left out

- SystemFileLocator and SystemWritableFileLocator (host directories) are not part of this model beyond their constructors' Directory.Exists check, which is the `dirs` parameter of the factories. The factories name them by their arguments.
- IsoFileLocator, UdfFileLocator and DiscFsFileLocator are not part of this model. Their detection functions are the `iso` and `udf` parameters, and the locators are named by format and source.
- The archive codec is abstract. This covers ArchiveFactory.Open, WriterFactory.Open, the writer's Write and the entry streams. An opened archive is its entry list, a decoder is a parameter, and the writer is its log. Archive type, compression and level are opaque tags.
- WriterFactory.Open failing in the constructor is not modelled: the writer always opens.
- Streams left open when a constructor throws are not modelled.
- Stream copying (CopyTo), GC.SuppressFinalize and MemoryFileLocator.Dispose are left out. They carry no observable state.
- Full Unicode case mapping is left out. OrdinalIgnoreCase and ToLowerInvariant are the per-character maps of `Platform`.
- The file checks of the staging constructor (File.Exists and the zero-length test) are the `prior` input, "None when missing or empty". The staging reader is taken to be an archive view. The constructor reads through FileLocatorFactory.Create, which gives a host directory locator for a root without an extension; that case is not modelled.
- File.OpenWrite does not truncate the target. The bytes it leaves behind are below the log abstraction.
- WritableFileLocatorFactory passes a CompressionLevel that the shown ArchiveWritableFileLocator constructors do not take. The model records the level in `WriterConfig` as the factory passes it.
- Path.GetExtension and Path.HasExtension follow the .NET Core definition: a scan back to the first '.' or separator, with a trailing '.' giving no extension. Older .NET Framework rules about invalid characters are not modelled.
- Dictionary key order is taken to be insertion order. This holds for a dictionary that is only added to and cleared, which is all MemoryFileLocator does.
- ArchiveWriter.Restage: proved only for a log whose keys are non-empty and pairwise distinct under PathEquals. A log with two keys that differ only in case reads back with one of them shadowed, so staging would not reproduce it.
- ArchiveWriter.TwoSessions: states the test's two sessions for any two non-empty paths that are not PathEquals. The test's random file names are not modelled.
- ArchiveWriter.Create: the used-key test is exact string equality. The source's `new SortedSet<string>()` uses the culture-sensitive default comparer, which also treats canonically equivalent strings ("\u00e9" and "e\u0301") and strings differing only in ignorable characters (such as U+00AD) as the same key; Create on such a second key throws ArgumentOutOfRangeException in the source and is logged by the model. Culture collation depends on the host's Unicode tables, which are outside this model.
- ArchiveView.EnumerateFiles: the source is a lazy iterator, so a disposed archive throws NullReferenceException at the first MoveNext, and an enumeration obtained before Dispose and read after it throws too. The model decides at the call: it fails exactly when the archive is already disposed, and an enumeration result is a finished sequence unaffected by a later Dispose.
- ArchiveWriter.Write: the same exact-equality key test as Create, for the same reason; a culture-equal but unequal key is logged by the model where the source throws ArgumentOutOfRangeException.

## Findings

| source | as written | input that shows it | evidently intended | confidence | as-written member | corrected member |
|---|---|---|---|---|---|---|
| JeremyAnsel.IO.Locator/JeremyAnsel.IO.Locator/MemoryFileLocator.cs:113 | the guard tests the literal `"path"`, so it never fires; Create("") stores the key "" | Create("") on a new store | Create and Write throw ArgumentNullException for a null or empty path, as MemoryFileLocatorTests.cs:45-49 expects | not executed | MemoryStore.CreateEmptyPathIsStored | MemoryStore.CreateCheckedRejectsEmptyPath |

The memory store's WriteAll and the staging constructor keep the as-written Create and Write, as the library behaves. `MemoryStore.CreateChecked` and `MemoryStore.WriteChecked` are the corrected operations. They differ from the as-written ones only on the empty path.

=== FILE: archive_view.dfy ===
/**
  ArchiveFileLocator: a read view over an archive's entry list. The archive
  codec is left abstract: an opened archive is the sequence of its entries,
  each with its key, its directory flag and its content.

  Lookups compare keys with PathEquals (case-insensitive, after relative
  normalization) and skip directory entries.
 */
module ArchiveView {
  import opened Errors
  import opened Paths

  datatype ArchiveEntry = ArchiveEntry(key: string, isDirectory: bool, data: Bytes)

  /** `borrowed`: the locator holds a stream it opened through a parent
      locator (layered construction); `archive`: the open archive's
      entries, None once disposed. */
  datatype ArchiveLocator = ArchiveLocator(borrowed: bool, archive: Option<seq<ArchiveEntry>>)

  /** A locator over an archive opened from a host path or a caller's stream:
      it borrows nothing. */
  function OpenEntries(es: seq<ArchiveEntry>): (a: ArchiveLocator)
    ensures !a.borrowed && a.archive == Some(es)
  {
    ArchiveLocator(false, Some(es))
  }

  /** A non-directory entry whose key is PathEquals to `path`. */
  predicate Matches(p: Platform, e: ArchiveEntry, path: string) {
    !e.isDirectory && PathEquals(p, e.key, path)
  }

  /** Index of the first matching entry at or after `i`. */
  function FindFrom(p: Platform, es: seq<ArchiveEntry>, path: string, i: nat): (r: Option<nat>)
    requires i <= |es|
    ensures r.Some? ==> i <= r.value < |es| && Matches(p, es[r.value], path)
    ensures r.Some? ==> forall j :: i <= j < r.value ==> !Matches(p, es[j], path)
    ensures r.None? ==> forall j :: i <= j < |es| ==> !Matches(p, es[j], path)
    decreases |es| - i
  {
    if i == |es| then None
    else if Matches(p, es[i], path) then Some(i)
    else FindFrom(p, es, path, i + 1)
  }

  function FindFile(p: Platform, es: seq<ArchiveEntry>, path: string): (r: Option<nat>)
    ensures r.Some? ==> r.value < |es| && Matches(p, es[r.value], path)
    ensures r.Some? ==> forall j :: 0 <= j < r.value ==> !Matches(p, es[j], path)
    ensures r.None? ==> forall j :: 0 <= j < |es| ==> !Matches(p, es[j], path)
  {
    FindFrom(p, es, path, 0)
  }

  /** Exists: false for null or ""; otherwise whether some file entry's key
      is PathEquals to `path`. */
  function Exists(p: Platform, a: ArchiveLocator, path: string): (r: Result<bool>)
    ensures path == [] ==> r == Ok(false)
    ensures path != [] && a.archive.None? ==> r == Err(NullReference)
    ensures path != [] && a.archive.Some? ==>
      r.Ok? && (r.value <==> exists i :: 0 <= i < |a.archive.value| && Matches(p, a.archive.value[i], path))
  {
    if path == [] then Ok(false)
    else match a.archive
      case None => Err(NullReference)
      case Some(es) => Ok(FindFile(p, es, path).Some?)
  }

  /** Open: ArgumentNullException for null or ""; otherwise the content of
      the first matching file entry, or FileNotFoundException. */
  function Open(p: Platform, a: ArchiveLocator, path: string): (r: Result<Bytes>)
    ensures path == [] ==> r == Err(ArgumentNull("path"))
    ensures path != [] && a.archive.None? ==> r == Err(NullReference)
    ensures path != [] && a.archive.Some? ==>
      var es := a.archive.value;
      && (r.Ok? <==> exists i :: 0 <= i < |es| && Matches(p, es[i], path))
      && (r.Err? ==> r.error == FileNotFound)
      && (r.Ok? ==> exists i :: 0 <= i < |es| && Matches(p, es[i], path) && r.value == es[i].data &&
                      forall j :: 0 <= j < i ==> !Matches(p, es[j], path))
  {
    if path == [] then Err(ArgumentNull("path"))
    else match a.archive
      case None => Err(NullReference)
      case Some(es) =>
        match FindFile(p, es, path)
        case Some(i) => Ok(es[i].data)
        case None => Err(FileNotFound)
  }

  /** For a non-empty path on an open archive, Open succeeds exactly when
      Exists holds. */
  lemma OpenIffExists(p: Platform, a: ArchiveLocator, path: string)
    requires path != [] && a.archive.Some?
    ensures Open(p, a, path).Ok? <==> Exists(p, a, path) == Ok(true)
  {
  }

  /** The normalized keys of the file entries whose key passes PathStartsWith
      against `root`, in entry order. */
  function ListFiles(p: Platform, es: seq<ArchiveEntry>, root: string): (r: seq<string>)
    ensures |r| <= |es|
    ensures forall x :: x in r ==> Normalize(p, x) == x && PathStartsWith(p, x, root)
    ensures forall i :: 0 <= i < |es| && !es[i].isDirectory && PathStartsWith(p, es[i].key, root) ==>
      Normalize(p, es[i].key) in r
  {
    if es == [] then []
    else
      var e := es[0];
      var rest := ListFiles(p, es[1..], root);
      NormalizeIdempotent(p, e.key);
      PathStartsWithNormalizeLeft(p, e.key, root);
      assert forall i :: 1 <= i < |es| ==> es[i] == es[1..][i - 1];
      (if !e.isDirectory && PathStartsWith(p, e.key, root) then [Normalize(p, e.key)] else []) + rest
  }

  /** The enumeration yields one path per matching file entry, in entry
      order: appending an entry appends its normalized key exactly when it
      is a file under the root. With ListFiles(p, [], root) == [] this fixes
      the enumeration of every entry list. */
  lemma {:induction false} ListFilesAppend(p: Platform, es: seq<ArchiveEntry>, e: ArchiveEntry, root: string)
    ensures ListFiles(p, [], root) == []
    ensures ListFiles(p, es + [e], root) ==
      ListFiles(p, es, root) + (if !e.isDirectory && PathStartsWith(p, e.key, root) then [Normalize(p, e.key)] else [])
  {
    if es != [] {
      assert (es + [e])[0] == es[0];
      assert (es + [e])[1..] == es[1..] + [e];
      ListFilesAppend(p, es[1..], e, root);
    } else {
      assert [e][1..] == [];
    }
  }

  /** Every enumerated path is the normalized key of some file entry. */
  lemma {:induction false} ListFilesSource(p: Platform, es: seq<ArchiveEntry>, root: string, x: string) returns (i: nat)
    requires x in ListFiles(p, es, root)
    ensures i < |es| && !es[i].isDirectory && Normalize(p, es[i].key) == x
  {
    var e := es[0];
    if !e.isDirectory && PathStartsWith(p, e.key, root) && x == Normalize(p, e.key) {
      i := 0;
    } else {
      var j := ListFilesSource(p, es[1..], root, x);
      i := j + 1;
    }
  }

  /** EnumerateFiles(root); the enumeration is lazy, so a disposed archive
      fails when it is first read. */
  function EnumerateFiles(p: Platform, a: ArchiveLocator, root: string): (r: Result<seq<string>>)
    ensures a.archive.None? <==> r == Err(NullReference)
    ensures r.Ok? ==> forall x :: x in r.value ==> Normalize(p, x) == x && PathStartsWith(p, x, root)
    ensures r.Ok? ==> var es := a.archive.value;
      forall i :: 0 <= i < |es| && !es[i].isDirectory && PathStartsWith(p, es[i].key, root) ==>
        Normalize(p, es[i].key) in r.value
  {
    match a.archive
    case None => Err(NullReference)
    case Some(es) => Ok(ListFiles(p, es, root))
  }

  /** Subtree enumeration is the full enumeration filtered by the root:
      EnumerateFiles(root) == [x in EnumerateFiles("") | PathStartsWith(x, root)]. */
  lemma {:induction false} ListFilesUnderRoot(p: Platform, es: seq<ArchiveEntry>, root: string)
    ensures ListFiles(p, es, root) == SelectUnder(p, ListFiles(p, es, []), root)
  {
    if es != [] {
      var e := es[0];
      ListFilesUnderRoot(p, es[1..], root);
      PathStartsWithEmptyRoot(p, e.key);
      PathStartsWithNormalizeLeft(p, e.key, root);
      var all := ListFiles(p, es[1..], []);
      if !e.isDirectory {
        var k := Normalize(p, e.key);
        assert ListFiles(p, es, []) == [k] + all;
        assert ([k] + all)[0] == k;
        assert ([k] + all)[1..] == all;
        assert SelectUnder(p, [k] + all, root) == (if PathStartsWith(p, k, root) then [k] else []) + SelectUnder(p, all, root);
      } else {
        assert ListFiles(p, es, []) == all;
      }
    }
  }

  /** The file entries alone, in order. */
  function FilesOnly(es: seq<ArchiveEntry>): (r: seq<ArchiveEntry>)
    ensures forall e :: e in r <==> e in es && !e.isDirectory
  {
    if es == [] then []
    else (if es[0].isDirectory then [] else [es[0]]) + FilesOnly(es[1..])
  }

  /** Directory entries are invisible: dropping them changes neither the
      enumeration nor which entry a lookup finds. */
  lemma {:induction false} DirectoriesInvisible(p: Platform, es: seq<ArchiveEntry>, root: string, path: string)
    ensures ListFiles(p, es, root) == ListFiles(p, FilesOnly(es), root)
    ensures var f, g := FindFile(p, es, path), FindFile(p, FilesOnly(es), path);
      f.Some? == g.Some? && (f.Some? ==> es[f.value] == FilesOnly(es)[g.value])
  {
    if es != [] {
      DirectoriesInvisible(p, es[1..], root, path);
      var e := es[0];
      var fs := FilesOnly(es[1..]);
      FindFromShift(p, es, path);
      if e.isDirectory {
        assert FilesOnly(es) == fs;
      } else {
        assert FilesOnly(es) == [e] + fs;
        assert ([e] + fs)[1..] == fs;
        FindFromShift(p, [e] + fs, path);
      }
    }
  }

  /** Searching a non-empty list is searching its head, then its tail. */
  lemma FindFromShift(p: Platform, es: seq<ArchiveEntry>, path: string)
    requires es != []
    ensures var f, g := FindFile(p, es, path), FindFile(p, es[1..], path);
      if Matches(p, es[0], path) then f == Some(0)
      else f.Some? == g.Some? && (f.Some? ==> f.value == g.value + 1)
  {
    assert forall j :: 1 <= j < |es| ==> es[j] == es[1..][j - 1];
  }

  datatype Resource = BorrowedStream | Archive

  /** Dispose: release the stream borrowed from a parent locator, then the
      archive; each handle is released at most once. */
  function Dispose(a: ArchiveLocator): (r: (ArchiveLocator, seq<Resource>))
    ensures |r.1| == (if a.borrowed then 1 else 0) + (if a.archive.Some? then 1 else 0)
    ensures BorrowedStream in r.1 <==> a.borrowed
    ensures Archive in r.1 <==> a.archive.Some?
    ensures a.borrowed && a.archive.Some? ==> r.1 == [BorrowedStream, Archive]
    ensures !r.0.borrowed && r.0.archive.None?
  {
    (ArchiveLocator(false, None),
     (if a.borrowed then [BorrowedStream] else []) + (if a.archive.Some? then [Archive] else []))
  }

  /** A second Dispose releases nothing and changes nothing. */
  lemma DisposeIdempotent(a: ArchiveLocator)
    ensures Dispose(Dispose(a).0) == (Dispose(a).0, [])
  {
  }

  /** A disposed locator still answers Exists("") but fails on every other
      lookup. */
  lemma DisposedFails(p: Platform, a: ArchiveLocator, path: string, root: string)
    requires path != []
    ensures Exists(p, Dispose(a).0, path) == Err(NullReference)
    ensures Open(p, Dispose(a).0, path) == Err(NullReference)
    ensures EnumerateFiles(p, Dispose(a).0, root) == Err(NullReference)
    ensures Exists(p, Dispose(a).0, []) == Ok(false)
  {
  }

  /** Lookups are case-insensitive: a file stored as "/A/b.txt" is found as
      "a\\B.TXT" on a Windows host. */
  lemma ExistsIsCaseInsensitive()
    ensures Exists(Windows, OpenEntries([ArchiveEntry("/A/b.txt", false, [])]), "a\\B.TXT") == Ok(true)
  {
    PathEqualsIgnoresCaseExample();
    var es := [ArchiveEntry("/A/b.txt", false, [])];
    assert Matches(Windows, es[0], "a\\B.TXT");
  }
}

=== FILE: archive_writer.dfy ===
/**
  ArchiveWritableFileLocator: a set of used keys guarding an append-only log
  of written entries. The archive writer itself is abstract: what it would
  write to the archive is the log, in order.

  The staging constructor opens an existing archive for writing by first
  copying its files into a MemoryFileLocator and then replaying them, so
  "open for write" behaves as "append".
 */
module ArchiveWriter {
  import opened Errors
  import opened Paths
  import opened Formats
  import MemoryStore
  import ArchiveView
  import Locators

  /** One file handed to the archive writer. */
  datatype Written = Written(key: string, data: Bytes)

  /** `writer` and `fileStream` say whether the archive writer and the file
      stream it writes to are still held; the stream constructor holds no
      file stream. */
  datatype WritableArchive = WritableArchive(
    keys: set<string>,
    log: seq<Written>,
    writer: bool,
    fileStream: bool,
    config: WriterConfig)

  /** The keys of the log, in order. */
  function LogKeys(log: seq<Written>): (ks: seq<string>)
    ensures |ks| == |log|
    ensures forall i :: 0 <= i < |log| ==> ks[i] == log[i].key
  {
    MemoryStore.Keys(AsMemory(log))
  }

  /** The key set is exactly the set of logged keys, the log never holds a
      key twice, and every logged key is a normalized path. */
  ghost predicate Valid(p: Platform, w: WritableArchive) {
    && w.keys == (set i | 0 <= i < |w.log| :: w.log[i].key)
    && (forall i, j :: 0 <= i < j < |w.log| ==> w.log[i].key != w.log[j].key)
    && (forall i :: 0 <= i < |w.log| ==> Normalize(p, w.log[i].key) == w.log[i].key)
  }

  /** `w2` differs from `w` at most in its keys and log. */
  predicate SameHandles(w: WritableArchive, w2: WritableArchive) {
    w2.writer == w.writer && w2.fileStream == w.fileStream && w2.config == w.config
  }

  /** The writer's Write(path, stream) followed by keys.Add(path). */
  function Append(p: Platform, w: WritableArchive, key: string, d: Bytes): (r: WritableArchive)
    requires key !in w.keys && Normalize(p, key) == key
    ensures r.log == w.log + [Written(key, d)] && r.keys == w.keys + {key}
    ensures SameHandles(w, r)
    ensures Valid(p, w) ==> Valid(p, r)
  {
    AppendValid(p, w, key, d);
    w.(keys := w.keys + {key}, log := w.log + [Written(key, d)])
  }

  lemma AppendValid(p: Platform, w: WritableArchive, key: string, d: Bytes)
    requires key !in w.keys && Normalize(p, key) == key
    ensures Valid(p, w) ==> Valid(p, w.(keys := w.keys + {key}, log := w.log + [Written(key, d)]))
  {
    var r := w.(keys := w.keys + {key}, log := w.log + [Written(key, d)]);
    if Valid(p, w) {
      assert forall i :: 0 <= i < |w.log| ==> r.log[i] == w.log[i];
      assert forall i :: 0 <= i < |w.log| ==> w.log[i].key in w.keys;
      assert r.log[|w.log|].key == key;
    }
  }

  /** The stream constructor: nothing written, no file stream held. */
  function OpenOnStream(config: WriterConfig): (w: WritableArchive)
    ensures forall p :: Valid(p, w)
    ensures w.log == [] && w.keys == {}
    ensures w.writer && !w.fileStream && w.config == config
  {
    WritableArchive({}, [], true, false, config)
  }

  /** Create: ArgumentNullException for null or ""; the normalized path must
      be unused (ArgumentOutOfRangeException); a disposed writer throws
      NullReferenceException; otherwise a one-byte placeholder `[0]` is
      written. */
  function Create(p: Platform, w: WritableArchive, path: string): (r: Step<WritableArchive>)
    ensures path == [] ==> r == Step(w, Fail(ArgumentNull("path")))
    ensures path != [] && Normalize(p, path) in w.keys ==> r == Step(w, Fail(ArgumentOutOfRange("path")))
    ensures path != [] && Normalize(p, path) !in w.keys && !w.writer ==> r == Step(w, Fail(NullReference))
    ensures r.status.Pass? <==> path != [] && Normalize(p, path) !in w.keys && w.writer
    ensures r.status.Pass? ==>
      && r.state.log == w.log + [Written(Normalize(p, path), [0])]
      && r.state.keys == w.keys + {Normalize(p, path)}
    ensures SameHandles(w, r.state)
  {
    if path == [] then Step(w, Fail(ArgumentNull("path")))
    else
      var key := Normalize(p, path);
      if key in w.keys then Step(w, Fail(ArgumentOutOfRange("path")))
      else if !w.writer then Step(w, Fail(NullReference))
      else
        NormalizeIdempotent(p, path);
        Step(Append(p, w, key, [0]), Pass)
  }

  /** Write: null or "" path, then null data (ArgumentNullException), then a
      used normalized path (ArgumentOutOfRangeException), then a disposed
      writer (NullReferenceException); otherwise the data is written. */
  function Write(p: Platform, w: WritableArchive, path: string, data: Option<Bytes>): (r: Step<WritableArchive>)
    ensures path == [] ==> r == Step(w, Fail(ArgumentNull("path")))
    ensures path != [] && data.None? ==> r == Step(w, Fail(ArgumentNull("data")))
    ensures path != [] && data.Some? && Normalize(p, path) in w.keys ==>
      r == Step(w, Fail(ArgumentOutOfRange("path")))
    ensures path != [] && data.Some? && Normalize(p, path) !in w.keys && !w.writer ==>
      r == Step(w, Fail(NullReference))
    ensures r.status.Pass? <==> path != [] && data.Some? && Normalize(p, path) !in w.keys && w.writer
    ensures r.status.Pass? ==>
      && r.state.log == w.log + [Written(Normalize(p, path), data.value)]
      && r.state.keys == w.keys + {Normalize(p, path)}
    ensures SameHandles(w, r.state)
  {
    if path == [] then Step(w, Fail(ArgumentNull("path")))
    else if data.None? then Step(w, Fail(ArgumentNull("data")))
    else
      var key := Normalize(p, path);
      if key in w.keys then Step(w, Fail(ArgumentOutOfRange("path")))
      else if !w.writer then Step(w, Fail(NullReference))
      else
        NormalizeIdempotent(p, path);
        Step(Append(p, w, key, data.value), Pass)
  }

  /** Create and Write keep the writer valid. */
  lemma StoreKeepsValid(p: Platform, w: WritableArchive, path: string, data: Option<Bytes>)
    requires Valid(p, w)
    ensures Valid(p, Create(p, w, path).state)
    ensures Valid(p, Write(p, w, path, data).state)
  {
  }

  /** `w2` is `w` with copies of the first few `items` appended to its log,
      each under its normalized path with the content opened for it. */
  predicate LoggedPrefix(p: Platform, w: WritableArchive, items: seq<(string, Result<Bytes>)>, w2: WritableArchive) {
    && |w.log| <= |w2.log| <= |w.log| + |items|
    && w2.log[..|w.log|] == w.log
    && forall i :: 0 <= i < |w2.log| - |w.log| ==>
         && items[i].1.Ok?
         && w2.log[|w.log| + i] == Written(Normalize(p, items[i].0), items[i].1.value)
  }

  /** Why copying `item` failed, given the writer it failed on: the open
      failed, the path was empty, its normalized path was already used, or
      the writer was disposed. */
  predicate CopyFailure(p: Platform, w: WritableArchive, item: (string, Result<Bytes>), e: Error) {
    match item.1
    case Err(oe) => e == oe
    case Ok(_) =>
      if item.0 == [] then e == ArgumentNull("path")
      else if Normalize(p, item.0) in w.keys then e == ArgumentOutOfRange("path")
      else !w.writer && e == NullReference
  }

  /** The copy loop of WriteAll: Write each opened file, in order; the first
      exception ends the loop and earlier writes stay. */
  function WriteFiles(p: Platform, w: WritableArchive, items: seq<(string, Result<Bytes>)>): (r: Step<WritableArchive>)
    ensures LoggedPrefix(p, w, items, r.state)
    ensures SameHandles(w, r.state)
    ensures r.status.Pass? <==> |r.state.log| == |w.log| + |items|
    ensures r.status.Fail? ==>
      var n := |r.state.log| - |w.log|;
      n < |items| && CopyFailure(p, r.state, items[n], r.status.error)
    decreases |items|
  {
    if items == [] then Step(w, Pass)
    else match items[0].1
      case Err(e) => Step(w, Fail(e))
      case Ok(d) =>
        var s := Write(p, w, items[0].0, Some(d));
        if s.status.Fail? then s
        else
          var r := WriteFiles(p, s.state, items[1..]);
          LoggedPrefixStep(p, w, items, s.state, r);
          r
  }

  lemma LoggedPrefixStep(p: Platform, w: WritableArchive, items: seq<(string, Result<Bytes>)>,
                         w1: WritableArchive, r: Step<WritableArchive>)
    requires items != [] && items[0].1.Ok?
    requires w1.log == w.log + [Written(Normalize(p, items[0].0), items[0].1.value)]
    requires LoggedPrefix(p, w1, items[1..], r.state)
    requires r.status.Fail? ==>
      var n := |r.state.log| - |w1.log|;
      n < |items[1..]| && CopyFailure(p, r.state, items[1..][n], r.status.error)
    ensures LoggedPrefix(p, w, items, r.state)
    ensures r.status.Fail? ==>
      var n := |r.state.log| - |w.log|;
      n < |items| && CopyFailure(p, r.state, items[n], r.status.error)
  {
    var w2 := r.state;
    assert w2.log[..|w.log|] == w2.log[..|w1.log|][..|w.log|];
    forall i | 0 < i < |w2.log| - |w.log|
      ensures w2.log[|w.log| + i] == w2.log[|w1.log| + (i - 1)]
      ensures items[i] == items[1..][i - 1]
    {
    }
    assert w2.log[|w.log|] == w2.log[..|w1.log|][|w.log|];
  }

  /** WriteAll(locator, root): ArgumentNullException for a null locator;
      otherwise each file the locator enumerates under `root` is opened and
      written, in order, up to the first failure. WriteAll(locator) is
      WriteAll(locator, ""). */
  function WriteAll(p: Platform, w: WritableArchive, src: Option<Locators.Locator>, root: string)
    : (r: Step<WritableArchive>)
    ensures src.None? ==> r == Step(w, Fail(ArgumentNull("locator")))
    ensures src.Some? && Locators.EnumerateFiles(p, src.value, root).Err? ==>
      r == Step(w, Fail(Locators.EnumerateFiles(p, src.value, root).error))
    ensures src.Some? && Locators.EnumerateFiles(p, src.value, root).Ok? ==>
      r == WriteFiles(p, w, Locators.OpenEach(p, src.value, Locators.EnumerateFiles(p, src.value, root).value))
    ensures SameHandles(w, r.state)
  {
    match src
    case None => Step(w, Fail(ArgumentNull("locator")))
    case Some(l) =>
      match Locators.EnumerateFiles(p, l, root)
      case Err(e) => Step(w, Fail(e))
      case Ok(files) => WriteFiles(p, w, Locators.OpenEach(p, l, files))
  }

  /** What WriteAll leaves behind: the files of the enumeration appended to
      the log in order, each under its normalized path with the content
      opened for it, up to the first failure, which names its cause. */
  lemma WriteAllCopies(p: Platform, w: WritableArchive, l: Locators.Locator, root: string)
    requires Locators.EnumerateFiles(p, l, root).Ok?
    ensures var r := WriteAll(p, w, Some(l), root);
      var items := Locators.OpenEach(p, l, Locators.EnumerateFiles(p, l, root).value);
      && LoggedPrefix(p, w, items, r.state)
      && SameHandles(w, r.state)
      && (r.status.Pass? <==> |r.state.log| == |w.log| + |items|)
      && (r.status.Fail? ==>
            var n := |r.state.log| - |w.log|;
            n < |items| && CopyFailure(p, r.state, items[n], r.status.error))
  {
    var items := Locators.OpenEach(p, l, Locators.EnumerateFiles(p, l, root).value);
    var r := WriteFiles(p, w, items);
    assert WriteAll(p, w, Some(l), root) == r;
    assert LoggedPrefix(p, w, items, r.state);
    assert r.status.Pass? <==> |r.state.log| == |w.log| + |items|;
  }

  /** The copy keeps the writer valid. */
  lemma {:induction false} WriteFilesKeepsValid(p: Platform, w: WritableArchive, items: seq<(string, Result<Bytes>)>)
    requires Valid(p, w)
    ensures Valid(p, WriteFiles(p, w, items).state)
    decreases |items|
  {
    if items != [] && items[0].1.Ok? {
      var s := Write(p, w, items[0].0, Some(items[0].1.value));
      StoreKeepsValid(p, w, items[0].0, Some(items[0].1.value));
      if s.status.Pass? {
        WriteFilesKeepsValid(p, s.state, items[1..]);
      }
    }
  }

  lemma WriteAllKeepsValid(p: Platform, w: WritableArchive, src: Option<Locators.Locator>, root: string)
    requires Valid(p, w)
    ensures Valid(p, WriteAll(p, w, src, root).state)
  {
    if src.Some? && Locators.EnumerateFiles(p, src.value, root).Ok? {
      WriteFilesKeepsValid(p, w, Locators.OpenEach(p, src.value, Locators.EnumerateFiles(p, src.value, root).value));
    }
  }

  /** The staging constructor. `prior` is what the target file holds: None
      when it is missing or empty, otherwise the result of opening it as an
      archive. Its files are copied into a memory store, a new writer is
      opened, and the store is replayed into it when it is not empty. */
  function OpenAt(p: Platform, prior: Option<Result<seq<ArchiveView.ArchiveEntry>>>, config: WriterConfig)
    : (r: Result<WritableArchive>)
    ensures prior.None? ==> r.Ok? && r.value.log == [] && r.value.keys == {}
    ensures prior.Some? && prior.value.Err? ==> r == Err(prior.value.error)
    ensures r.Ok? ==> Valid(p, r.value)
    ensures r.Ok? ==> r.value.writer && r.value.fileStream && r.value.config == config
  {
    match Stage(p, prior)
    case Err(e) => Err(e)
    case Ok(staged) =>
      var w := WritableArchive({}, [], true, true, config);
      if MemoryStore.IsEmpty(staged) then Ok(w)
      else
        var s := WriteAll(p, w, Some(Locators.Memory(staged)), []);
        WriteAllKeepsValid(p, w, Some(Locators.Memory(staged)), []);
        if s.status.Fail? then Err(s.status.error) else Ok(s.state)
  }

  /** The staging copy: the prior archive's files in a new memory store. */
  function Stage(p: Platform, prior: Option<Result<seq<ArchiveView.ArchiveEntry>>>)
    : (r: Result<MemoryStore.MemoryLocator>)
    ensures prior.None? ==> r == Ok(MemoryStore.New())
    ensures prior.Some? && prior.value.Err? ==> r == Err(prior.value.error)
  {
    match prior
    case None => Ok(MemoryStore.New())
    case Some(Err(e)) => Err(e)
    case Some(Ok(es)) =>
      var s := Locators.MemoryWriteAll(p, MemoryStore.New(), Some(Locators.Archive(ArchiveView.OpenEntries(es))), []);
      if s.status.Fail? then Err(s.status.error) else Ok(s.state)
  }

  /** The files a finished log leaves in the archive, as the read view sees
      them. */
  function AsEntries(log: seq<Written>): (es: seq<ArchiveView.ArchiveEntry>)
    ensures |es| == |log|
    ensures forall i :: 0 <= i < |log| ==> es[i] == ArchiveView.ArchiveEntry(log[i].key, false, log[i].data)
  {
    if log == [] then [] else [ArchiveView.ArchiveEntry(log[0].key, false, log[0].data)] + AsEntries(log[1..])
  }

  /** The memory store holding a log's files, in log order. */
  function AsMemory(log: seq<Written>): (m: MemoryStore.MemoryLocator)
    ensures |m.entries| == |log|
    ensures forall i :: 0 <= i < |log| ==> m.entries[i] == MemoryStore.Entry(log[i].key, log[i].data)
  {
    if log == [] then MemoryStore.MemoryLocator([])
    else MemoryStore.MemoryLocator([MemoryStore.Entry(log[0].key, log[0].data)] + AsMemory(log[1..]).entries)
  }

  /** A log the writer can replay: no key is empty. */
  ghost predicate NonEmptyKeys(log: seq<Written>) {
    forall i :: 0 <= i < |log| ==> log[i].key != []
  }

  /** A log the archive reads back unambiguously: non-empty keys, no two of
      them equal under PathEquals. */
  ghost predicate Distinguishable(p: Platform, log: seq<Written>) {
    && NonEmptyKeys(log)
    && (forall i, j :: 0 <= i < j < |log| ==> !PathEquals(p, log[i].key, log[j].key))
  }

  /** Reopening an archive for writing keeps what it held: when the archive
      holds exactly a valid, distinguishable log, staging replays that log. */
  lemma Restage(p: Platform, w: WritableArchive, config: WriterConfig)
    requires Valid(p, w) && Distinguishable(p, w.log)
    ensures OpenAt(p, Some(Ok(AsEntries(w.log))), config).Ok?
    ensures OpenAt(p, Some(Ok(AsEntries(w.log))), config).value.log == w.log
  {
    StageReadsLog(p, w);
    var m := AsMemory(w.log);
    var w0 := WritableArchive({}, [], true, true, config);
    if !MemoryStore.IsEmpty(m) {
      ReplayWritesLog(p, w, w0);
    }
  }

  /** Staging an archive that holds a valid, distinguishable log copies it
      into memory entry for entry. */
  lemma StageReadsLog(p: Platform, w: WritableArchive)
    requires Valid(p, w) && Distinguishable(p, w.log)
    ensures Stage(p, Some(Ok(AsEntries(w.log)))) == Ok(AsMemory(w.log))
  {
    var src := Locators.Archive(ArchiveView.OpenEntries(AsEntries(w.log)));
    ListFilesOfLog(p, w.log);
    var r := Locators.WriteFiles(p, MemoryStore.New(), StagedItems(p, w));
    assert Locators.MemoryWriteAll(p, MemoryStore.New(), Some(src), []) == r;
    StageLoopCopiesLog(p, w);
  }

  lemma StageLoopCopiesLog(p: Platform, w: WritableArchive)
    requires Valid(p, w) && Distinguishable(p, w.log)
    ensures Locators.WriteFiles(p, MemoryStore.New(), StagedItems(p, w)) == Step(AsMemory(w.log), Pass)
  {
    var r := Locators.WriteFiles(p, MemoryStore.New(), StagedItems(p, w));
    var m := AsMemory(w.log);
    StagedIsPrefix(p, w, r.state);
    StagePasses(p, w);
    StagedItemsMeaning(p, w);
    assert |r.state.entries| == |m.entries|;
    assert r.state.entries == m.entries[..|m.entries|] == m.entries;
  }

  /** The items the staging copy reads from an archive holding `w.log`. */
  function StagedItems(p: Platform, w: WritableArchive): seq<(string, Result<Bytes>)> {
    Locators.OpenEach(p, Locators.Archive(ArchiveView.OpenEntries(AsEntries(w.log))), LogKeys(w.log))
  }

  lemma StagedItemsMeaning(p: Platform, w: WritableArchive)
    requires Valid(p, w) && Distinguishable(p, w.log)
    ensures |StagedItems(p, w)| == |w.log|
    ensures forall i :: 0 <= i < |w.log| ==> StagedItems(p, w)[i] == (w.log[i].key, Ok(w.log[i].data))
  {
    var src := Locators.Archive(ArchiveView.OpenEntries(AsEntries(w.log)));
    Locators.OpenEachOpens(p, src, LogKeys(w.log));
    forall i | 0 <= i < |w.log|
      ensures StagedItems(p, w)[i] == (w.log[i].key, Ok(w.log[i].data))
    {
      OpenLoggedKey(p, w, i);
    }
  }

  /** Whatever the staging copy has written so far is a prefix of the log. */
  lemma StagedIsPrefix(p: Platform, w: WritableArchive, m2: MemoryStore.MemoryLocator)
    requires Valid(p, w) && Distinguishable(p, w.log)
    requires Locators.CopiedPrefix(p, MemoryStore.New(), StagedItems(p, w), m2)
    ensures m2.entries == AsMemory(w.log).entries[..|m2.entries|]
  {
    var items := StagedItems(p, w);
    StagedItemsMeaning(p, w);
    forall i | 0 <= i < |m2.entries|
      ensures m2.entries[i] == AsMemory(w.log).entries[i]
    {
      assert m2.entries[0 + i] == MemoryStore.Entry(Normalize(p, items[i].0), items[i].1.value);
    }
  }

  lemma StagePasses(p: Platform, w: WritableArchive)
    requires Valid(p, w) && Distinguishable(p, w.log)
    ensures Locators.WriteFiles(p, MemoryStore.New(), StagedItems(p, w)).status.Pass?
  {
    var r := Locators.WriteFiles(p, MemoryStore.New(), StagedItems(p, w));
    StagedIsPrefix(p, w, r.state);
    StagedItemsMeaning(p, w);
    StagedKeyFresh(p, w, r.state);
  }

  /** The next logged key is never among the keys already staged. */
  lemma StagedKeyFresh(p: Platform, w: WritableArchive, m2: MemoryStore.MemoryLocator)
    requires Valid(p, w)
    requires |m2.entries| <= |w.log| && m2.entries == AsMemory(w.log).entries[..|m2.entries|]
    ensures |m2.entries| < |w.log| ==> !MemoryStore.Exists(p, m2, w.log[|m2.entries|].key)
  {
    var n := |m2.entries|;
    if n < |w.log| {
      assert Normalize(p, w.log[n].key) == w.log[n].key;
      assert forall j :: 0 <= j < n ==> m2.entries[j].key == w.log[j].key;
    }
  }

  /** Enumerating an archive that holds a log of normalized keys yields those
      keys in order. */
  lemma {:induction false} ListFilesOfLog(p: Platform, log: seq<Written>)
    requires forall i :: 0 <= i < |log| ==> Normalize(p, log[i].key) == log[i].key
    ensures ArchiveView.ListFiles(p, AsEntries(log), []) == LogKeys(log)
  {
    if log != [] {
      var es := AsEntries(log);
      assert es[1..] == AsEntries(log[1..]);
      ListFilesOfLog(p, log[1..]);
      PathStartsWithEmptyRoot(p, log[0].key);
    }
  }

  /** In a distinguishable log, opening the i-th key finds the i-th entry. */
  lemma OpenLoggedKey(p: Platform, w: WritableArchive, i: nat)
    requires Valid(p, w) && Distinguishable(p, w.log) && i < |w.log|
    ensures Locators.Open(p, Locators.Archive(ArchiveView.OpenEntries(AsEntries(w.log))), w.log[i].key)
      == Ok(w.log[i].data)
  {
    var es := AsEntries(w.log);
    var k := w.log[i].key;
    assert ArchiveView.Matches(p, es[i], k);
    forall j | 0 <= j < |es| && j != i
      ensures !ArchiveView.Matches(p, es[j], k)
    {
      if j < i {
        assert !PathEquals(p, w.log[j].key, k);
      } else {
        assert !PathEquals(p, k, w.log[j].key);
      }
    }
    assert ArchiveView.FindFile(p, es, k) == Some(i);
  }

  /** The items the replay reads from the staged memory store. */
  function ReplayItems(p: Platform, w: WritableArchive): seq<(string, Result<Bytes>)> {
    Locators.OpenEach(p, Locators.Memory(AsMemory(w.log)), LogKeys(w.log))
  }

  lemma ReplayItemsMeaning(p: Platform, w: WritableArchive)
    requires Valid(p, w)
    ensures |ReplayItems(p, w)| == |w.log|
    ensures forall i :: 0 <= i < |w.log| ==> ReplayItems(p, w)[i] == (w.log[i].key, Ok(w.log[i].data))
  {
    var m := AsMemory(w.log);
    Locators.OpenEachOpens(p, Locators.Memory(m), LogKeys(w.log));
    forall i | 0 <= i < |w.log|
      ensures ReplayItems(p, w)[i] == (w.log[i].key, Ok(w.log[i].data))
    {
      MemoryStore.LookupUnique(m.entries, w.log[i].key, w.log[i].data);
    }
  }

  /** Replaying a staged log into a new writer writes that log. The store
      and the writer compare keys exactly, so keys that are equal only
      under PathEquals replay as well. */
  lemma ReplayWritesLog(p: Platform, w: WritableArchive, w0: WritableArchive)
    requires Valid(p, w) && NonEmptyKeys(w.log)
    requires w0.log == [] && w0.keys == {} && w0.writer
    ensures WriteAll(p, w0, Some(Locators.Memory(AsMemory(w.log))), []).status.Pass?
    ensures WriteAll(p, w0, Some(Locators.Memory(AsMemory(w.log))), []).state.log == w.log
  {
    var m := AsMemory(w.log);
    assert MemoryStore.Keys(m) == LogKeys(w.log);
    SelectUnderEmptyRoot(p, LogKeys(w.log));
    assert WriteAll(p, w0, Some(Locators.Memory(m)), []) == WriteFiles(p, w0, ReplayItems(p, w));
    ReplayLoopWritesLog(p, w, w0);
  }

  lemma ReplayLoopWritesLog(p: Platform, w: WritableArchive, w0: WritableArchive)
    requires Valid(p, w) && NonEmptyKeys(w.log)
    requires w0.log == [] && w0.keys == {} && w0.writer
    ensures WriteFiles(p, w0, ReplayItems(p, w)).status.Pass?
    ensures WriteFiles(p, w0, ReplayItems(p, w)).state.log == w.log
  {
    var r := WriteFiles(p, w0, ReplayItems(p, w));
    ReplayIsPrefix(p, w, w0, r.state);
    ReplayPasses(p, w, w0);
    assert w.log[..|w.log|] == w.log;
  }

  lemma ReplayIsPrefix(p: Platform, w: WritableArchive, w0: WritableArchive, w2: WritableArchive)
    requires Valid(p, w) && w0.log == []
    requires LoggedPrefix(p, w0, ReplayItems(p, w), w2)
    ensures w2.log == w.log[..|w2.log|]
  {
    var items := ReplayItems(p, w);
    ReplayItemsMeaning(p, w);
    assert |w2.log| <= |w.log|;
    forall i | 0 <= i < |w2.log|
      ensures w2.log[i] == w.log[i]
    {
      assert w2.log[|w0.log| + i] == Written(Normalize(p, items[i].0), items[i].1.value);
      ReplayEntry(p, w, items, w2, i);
    }
  }

  lemma ReplayEntry(p: Platform, w: WritableArchive, items: seq<(string, Result<Bytes>)>,
                    w2: WritableArchive, i: nat)
    requires forall j :: 0 <= j < |w.log| ==> Normalize(p, w.log[j].key) == w.log[j].key
    requires |items| == |w.log| && i < |w2.log| <= |w.log|
    requires items[i] == (w.log[i].key, Ok(w.log[i].data))
    requires w2.log[i] == Written(Normalize(p, items[i].0), items[i].1.value)
    ensures w2.log[i] == w.log[i]
  {
  }

  lemma ReplayPasses(p: Platform, w: WritableArchive, w0: WritableArchive)
    requires Valid(p, w) && NonEmptyKeys(w.log)
    requires w0.log == [] && w0.keys == {} && w0.writer
    ensures WriteFiles(p, w0, ReplayItems(p, w)).status.Pass?
  {
    var r := WriteFiles(p, w0, ReplayItems(p, w));
    ReplayIsPrefix(p, w, w0, r.state);
    ReplayItemsMeaning(p, w);
    assert Valid(p, w0);
    WriteFilesKeepsValid(p, w0, ReplayItems(p, w));
    ReplayKeyFresh(p, w, r.state);
  }

  /** The next logged key is never among the keys already replayed. */
  lemma ReplayKeyFresh(p: Platform, w: WritableArchive, w2: WritableArchive)
    requires Valid(p, w) && NonEmptyKeys(w.log) && Valid(p, w2)
    requires |w2.log| <= |w.log| && w2.log == w.log[..|w2.log|]
    ensures |w2.log| < |w.log| ==>
      w.log[|w2.log|].key != [] && Normalize(p, w.log[|w2.log|].key) !in w2.keys
  {
    var n := |w2.log|;
    if n < |w.log| {
      assert Normalize(p, w.log[n].key) == w.log[n].key;
      assert forall j :: 0 <= j < n ==> w2.log[j] == w.log[j];
    }
  }

  /** A session on a fresh archive that creates one file logs just that
      file, and the archive it leaves reopens to the same log. */
  lemma FirstSession(p: Platform, a: string, config: WriterConfig)
    requires Normalize(p, a) != []
    ensures var s1 := Create(p, OpenAt(p, None, config).value, a);
      && s1.status.Pass?
      && s1.state.log == [Written(Normalize(p, a), [0])]
      && var w2 := OpenAt(p, Some(Ok(AsEntries(s1.state.log))), config);
      && w2.Ok? && w2.value.log == s1.state.log
  {
    var w0 := OpenAt(p, None, config).value;
    var s1 := Create(p, w0, a);
    StoreKeepsValid(p, w0, a, None);
    assert s1.state.log == [Written(Normalize(p, a), [0])];
    Restage(p, s1.state, config);
  }

  /** Two sessions on the same archive file, each creating one file, leave
      both files in the archive (the first session's file replayed first). */
  lemma TwoSessions(p: Platform, a: string, b: string, config: WriterConfig)
    requires Normalize(p, a) != [] && Normalize(p, b) != [] && !PathEquals(p, a, b)
    ensures var s1 := Create(p, OpenAt(p, None, config).value, a);
      && s1.status.Pass?
      && var w2 := OpenAt(p, Some(Ok(AsEntries(s1.state.log))), config);
      && w2.Ok?
      && var s2 := Create(p, w2.value, b);
      && s2.status.Pass?
      && s2.state.log == [Written(Normalize(p, a), [0]), Written(Normalize(p, b), [0])]
      && |ArchiveView.ListFiles(p, AsEntries(s2.state.log), [])| == 2
  {
    FirstSession(p, a, config);
    var s1 := Create(p, OpenAt(p, None, config).value, a);
    var w2 := OpenAt(p, Some(Ok(AsEntries(s1.state.log))), config).value;
    assert Normalize(p, b) != Normalize(p, a);
    SecondSession(p, w2, Normalize(p, a), b);
  }

  /** A second session on an archive holding one file `ka` that creates a
      file with another normalized path appends it after `ka`. */
  lemma SecondSession(p: Platform, w2: WritableArchive, ka: string, b: string)
    requires Valid(p, w2) && w2.writer && w2.log == [Written(ka, [0])]
    requires Normalize(p, b) != [] && Normalize(p, b) != ka
    ensures var s2 := Create(p, w2, b);
      && s2.status.Pass?
      && s2.state.log == [Written(ka, [0]), Written(Normalize(p, b), [0])]
      && |ArchiveView.ListFiles(p, AsEntries(s2.state.log), [])| == 2
  {
    assert Normalize(p, b) !in w2.keys;
    var s2 := Create(p, w2, b);
    StoreKeepsValid(p, w2, b, None);
    ListFilesOfLog(p, s2.state.log);
  }

  datatype Handle = Writer | FileStream

  /** Dispose: release the archive writer, then the file stream; each handle
      is released at most once. */
  function Dispose(w: WritableArchive): (r: (WritableArchive, seq<Handle>))
    ensures |r.1| == (if w.writer then 1 else 0) + (if w.fileStream then 1 else 0)
    ensures Writer in r.1 <==> w.writer
    ensures FileStream in r.1 <==> w.fileStream
    ensures w.writer && w.fileStream ==> r.1 == [Writer, FileStream]
    ensures !r.0.writer && !r.0.fileStream
    ensures r.0.log == w.log && r.0.keys == w.keys
  {
    (w.(writer := false, fileStream := false),
     (if w.writer then [Writer] else []) + (if w.fileStream then [FileStream] else []))
  }

  /** A second Dispose releases nothing and changes nothing. */
  lemma DisposeIdempotent(w: WritableArchive)
    ensures Dispose(Dispose(w).0) == (Dispose(w).0, [])
  {
  }

  /** After Dispose, a Create that passes the argument checks fails with
      NullReferenceException and writes nothing. */
  lemma CreateAfterDispose(p: Platform, w: WritableArchive, path: string)
    requires path != [] && Normalize(p, path) !in w.keys
    ensures Create(p, Dispose(w).0, path) == Step(Dispose(w).0, Fail(NullReference))
  {
  }
}

=== FILE: disc_factory.dfy ===
/**
  DiscFileLocatorFactory: recognises a disc image as ISO 9660 or UDF by
  running two detectors in order, ISO first. The detectors belong to the
  disc codec and are parameters here: each reads a stream and says whether
  it accepts it, leaving the stream at some position.

  The path and layered variants open a fresh stream (at position 0) for
  each detector. The stream variant runs both detectors on the caller's one
  stream and rewinds it only after a detector accepts, so the UDF detector
  starts wherever the ISO detector stopped.
 */
module DiscFileLocatorFactory {
  import opened Errors
  import opened Paths
  import Locators

  datatype Stream = Stream(content: Bytes, position: nat)

  /** A detector's verdict and the stream as it leaves it. */
  datatype Probe = Probe(accepted: bool, after: Stream)

  type Detector = Stream -> Probe

  datatype DiscFormat = Iso | Udf

  /** Where the disc locator reads the image from. The ISO and UDF locators
      themselves are not part of this model. */
  datatype Source =
    | HostFile(root: string)
    | ParentFile(parent: Locators.Locator, root: string)
    | CallerStream(s: Stream)

  datatype DiscLocator = DiscLocator(format: DiscFormat, source: Source)

  /** The host file's bytes, or why File.OpenRead failed. */
  type HostFile = string -> Result<Bytes>

  /** The format two detectors assign to an image when each gets a fresh
      stream over it. */
  function DetectFresh(content: Bytes, iso: Detector, udf: Detector): (r: Option<DiscFormat>)
    ensures iso(Stream(content, 0)).accepted ==> r == Some(Iso)
    ensures r == Some(Udf) <==> !iso(Stream(content, 0)).accepted && udf(Stream(content, 0)).accepted
    ensures r.None? <==> !iso(Stream(content, 0)).accepted && !udf(Stream(content, 0)).accepted
  {
    if iso(Stream(content, 0)).accepted then Some(Iso)
    else if udf(Stream(content, 0)).accepted then Some(Udf)
    else None
  }

  /** Create(root): null or "" throws ArgumentNullException; the host file
      is opened afresh for each detector; neither accepting throws
      NotSupportedException. */
  function Create(p: Platform, root: string, host: HostFile, iso: Detector, udf: Detector): (r: Result<DiscLocator>)
    ensures root == [] ==> r == Err(ArgumentNull("root"))
    ensures root != [] && host(root).Err? ==> r == Err(host(root).error)
    ensures r.Ok? ==>
      && r.value.source == HostFile(root) && host(root).Ok?
      && DetectFresh(host(root).value, iso, udf) == Some(r.value.format)
    ensures root != [] && host(root).Ok? && DetectFresh(host(root).value, iso, udf).None? ==> r == Err(NotSupported)
    ensures root != [] && host(root).Ok? && DetectFresh(host(root).value, iso, udf).Some? ==>
      r == Ok(DiscLocator(DetectFresh(host(root).value, iso, udf).value, HostFile(root)))
  {
    if root == [] then Err(ArgumentNull("root"))
    else
      match host(root)
      case Err(e) => Err(e)
      case Ok(content) =>
        match DetectFresh(content, iso, udf)
        case Some(f) => Ok(DiscLocator(f, HostFile(root)))
        case None => Err(NotSupported)
  }

  /** Create(locator, root): the null locator is reported before the root,
      and here "" is refused as well as null; the parent opens the image
      afresh for each detector. */
  function CreateLayered(p: Platform, parent: Option<Locators.Locator>, root: string, iso: Detector, udf: Detector)
    : (r: Result<DiscLocator>)
    ensures parent.None? ==> r == Err(ArgumentNull("locator"))
    ensures parent.Some? && root == [] ==> r == Err(ArgumentNull("root"))
    ensures parent.Some? && root != [] && Locators.Open(p, parent.value, root).Err? ==>
      r == Err(Locators.Open(p, parent.value, root).error)
    ensures r.Ok? ==>
      && parent.Some? && r.value.source == ParentFile(parent.value, root)
      && Locators.Open(p, parent.value, root).Ok?
      && DetectFresh(Locators.Open(p, parent.value, root).value, iso, udf) == Some(r.value.format)
    ensures parent.Some? && root != [] && Locators.Open(p, parent.value, root).Ok? ==>
      var f := DetectFresh(Locators.Open(p, parent.value, root).value, iso, udf);
      && (f.None? ==> r == Err(NotSupported))
      && (f.Some? ==> r == Ok(DiscLocator(f.value, ParentFile(parent.value, root))))
  {
    if parent.None? then Err(ArgumentNull("locator"))
    else if root == [] then Err(ArgumentNull("root"))
    else
      match Locators.Open(p, parent.value, root)
      case Err(e) => Err(e)
      case Ok(content) =>
        match DetectFresh(content, iso, udf)
        case Some(f) => Ok(DiscLocator(f, ParentFile(parent.value, root)))
        case None => Err(NotSupported)
  }

  /** Create(stream): a null stream throws ArgumentNullException. The ISO
      detector reads the caller's stream where it stands; if it rejects,
      the UDF detector reads on from where the ISO detector left it. The
      accepted stream is rewound to 0 and handed to the disc locator. */
  function CreateFromStream(stream: Option<Stream>, iso: Detector, udf: Detector): (r: Result<DiscLocator>)
    ensures stream.None? ==> r == Err(ArgumentNull("root"))
    ensures stream.Some? && iso(stream.value).accepted ==>
      r == Ok(DiscLocator(Iso, CallerStream(iso(stream.value).after.(position := 0))))
    ensures stream.Some? && !iso(stream.value).accepted ==>
      var b := udf(iso(stream.value).after);
      && (b.accepted ==> r == Ok(DiscLocator(Udf, CallerStream(b.after.(position := 0)))))
      && (!b.accepted ==> r == Err(NotSupported))
    ensures r.Ok? ==> r.value.source.CallerStream? && r.value.source.s.position == 0
  {
    match stream
    case None => Err(ArgumentNull("root"))
    case Some(s) =>
      var a := iso(s);
      if a.accepted then Ok(DiscLocator(Iso, CallerStream(a.after.(position := 0))))
      else
        var b := udf(a.after);
        if b.accepted then Ok(DiscLocator(Udf, CallerStream(b.after.(position := 0))))
        else Err(NotSupported)
  }

  /** ISO wins: an image both detectors accept is an ISO image in every
      variant; through a parent locator it is ISO whenever the parent opens
      the root and the ISO detector accepts what it opened. */
  lemma IsoFirst(p: Platform, l: Locators.Locator, root: string, host: HostFile, s: Stream, iso: Detector, udf: Detector)
    requires root != [] && host(root).Ok?
    requires iso(Stream(host(root).value, 0)).accepted && iso(s).accepted
    ensures Create(p, root, host, iso, udf).Ok? && Create(p, root, host, iso, udf).value.format == Iso
    ensures CreateFromStream(Some(s), iso, udf).Ok? && CreateFromStream(Some(s), iso, udf).value.format == Iso
    ensures Locators.Open(p, l, root).Ok? && iso(Stream(Locators.Open(p, l, root).value, 0)).accepted ==>
      CreateLayered(p, Some(l), root, iso, udf) == Ok(DiscLocator(Iso, ParentFile(l, root)))
  {
  }

  /** The path and the layered variants agree: when the parent opens the
      same bytes the host file holds, both accept the image or both refuse
      it, and they assign the same format; only the source differs. */
  lemma LayeredAgreesWithPath(p: Platform, l: Locators.Locator, root: string, host: HostFile,
                              iso: Detector, udf: Detector)
    requires root != [] && host(root).Ok? && Locators.Open(p, l, root) == host(root)
    ensures var viaPath := Create(p, root, host, iso, udf);
      var viaParent := CreateLayered(p, Some(l), root, iso, udf);
      && (viaPath.Ok? <==> viaParent.Ok?)
      && (viaPath.Err? ==> viaParent == Err(viaPath.error))
      && (viaPath.Ok? ==> viaParent.value == DiscLocator(viaPath.value.format, ParentFile(l, root)))
  {
  }

  /** A detector that only reads: the bytes are left alone. */
  ghost predicate ReadsOnly(d: Detector) {
    forall s: Stream {:trigger d(s)} :: d(s).after.content == s.content
  }

  /** The stream and the path variants agree when the stream starts at 0 and
      the ISO detector, on rejecting, leaves it at 0. */
  lemma StreamAgreesWithPath(p: Platform, root: string, host: HostFile, iso: Detector, udf: Detector)
    requires root != [] && host(root).Ok?
    requires ReadsOnly(iso)
    requires var s := Stream(host(root).value, 0); !iso(s).accepted ==> iso(s).after.position == 0
    ensures var s := Stream(host(root).value, 0);
      var viaPath := Create(p, root, host, iso, udf);
      var viaStream := CreateFromStream(Some(s), iso, udf);
      viaPath.Ok? == viaStream.Ok? && (viaPath.Ok? ==> viaPath.value.format == viaStream.value.format)
  {
    var s := Stream(host(root).value, 0);
    assert iso(s).after.content == s.content;
    if !iso(s).accepted {
      assert iso(s).after == s;
    }
  }

  /** Without the rewind between probes the variants can disagree: a UDF
      detector that looks for its marker from the current position, after
      an ISO detector that reads the whole image and rejects it, finds the
      image through a path but not through a stream. */
  lemma NoRewindBetweenProbes(p: Platform, root: string, host: HostFile)
    requires root != [] && host(root) == Ok([1])
    ensures var iso := (s: Stream) => Probe(false, s.(position := |s.content|));
      var udf := (s: Stream) => Probe(s.position < |s.content| && s.content[s.position] == 1, s);
      && Create(p, root, host, iso, udf) == Ok(DiscLocator(Udf, HostFile(root)))
      && CreateFromStream(Some(Stream([1], 0)), iso, udf) == Err(NotSupported)
  {
  }

  /** An empty image (Stream.Null is the usual case) that the ISO detector
      rejects without changing it, and that the UDF detector rejects at any
      position, is refused by every variant. */
  lemma UnrecognisedImageRefused(p: Platform, root: string, host: HostFile, l: Locators.Locator,
                                 iso: Detector, udf: Detector)
    requires !iso(Stream([], 0)).accepted && iso(Stream([], 0)).after.content == []
    requires forall n: nat :: !udf(Stream([], n)).accepted
    requires root != [] && host(root) == Ok([]) && Locators.Open(p, l, root) == Ok([])
    ensures Create(p, root, host, iso, udf) == Err(NotSupported)
    ensures CreateLayered(p, Some(l), root, iso, udf) == Err(NotSupported)
    ensures CreateFromStream(Some(Stream([], 0)), iso, udf) == Err(NotSupported)
  {
    var after := iso(Stream([], 0)).after;
    assert after == Stream([], after.position);
  }
}

=== FILE: disc_paths.dfy ===
/**
  Path algebra of the disc-image locators (the "rooted" flavour): the
  relative normalization followed by exactly one leading separator.
 */
module DiscPaths {
  import opened Paths

  /** Rooted normalization: the relative form behind exactly one leading
      separator; null and "" give "" (not the root). */
  function Normalize(p: Platform, path: string): (r: string)
    ensures r == [] <==> path == []
    ensures r != [] ==> r[0] == p.sep
    ensures |r| >= 2 ==> r[1] != p.sep
    ensures |r| <= |path| + 1
  {
    if path == [] then [] else [p.sep] + Paths.Normalize(p, path)
  }

  /** Rooted normalization is the source's pipeline: replace the alternate
      separator, trim the leading separators, insert one separator at 0. */
  lemma NormalizeMatchesSource(p: Platform, path: string)
    ensures Normalize(p, path) ==
      (if path == [] then [] else [p.sep] + TrimStart(Replace(path, p.alt, p.sep), p.sep))
  {
    Paths.NormalizeMatchesSource(p, path);
  }

  /** A rooted form keeps no alternate separator. */
  lemma NoAlternateSeparator(p: Platform, path: string)
    requires p.alt != p.sep
    ensures forall i :: 0 <= i < |Normalize(p, path)| ==> Normalize(p, path)[i] != p.alt
  {
    Paths.NormalizeShape(p, path);
  }

  /** Rooted normalization is idempotent. */
  lemma {:induction false} NormalizeIdempotent(p: Platform, path: string)
    ensures Normalize(p, Normalize(p, path)) == Normalize(p, path)
  {
    var r := Normalize(p, path);
    if r != [] {
      var rest := Paths.Normalize(p, path);
      assert r[1..] == rest;
      assert Paths.Normalize(p, r) == Paths.Normalize(p, rest);
      Paths.NormalizeIdempotent(p, path);
    }
  }

  /** A non-empty path made only of separators normalizes to the root. */
  lemma SeparatorsOnlyNormalizeRoot(p: Platform, path: string)
    requires path != []
    requires forall i :: 0 <= i < |path| ==> IsSeparator(p, path[i])
    ensures Normalize(p, path) == [p.sep]
  {
    Paths.SeparatorsOnlyNormalizeEmpty(p, path);
  }

  /** The relative and rooted flavours agree up to the leading separator:
      two non-empty paths have the same rooted form iff they have the same
      relative form. */
  lemma SameRootedIffSameRelative(p: Platform, a: string, b: string)
    requires a != [] && b != []
    ensures Normalize(p, a) == Normalize(p, b) <==> Paths.Normalize(p, a) == Paths.Normalize(p, b)
  {
    var x, y := Paths.Normalize(p, a), Paths.Normalize(p, b);
    if Normalize(p, a) == Normalize(p, b) {
      assert [p.sep] + x == [p.sep] + y;
      assert x == ([p.sep] + x)[1..];
    }
  }
}

=== FILE: errors.dfy ===
/**
  Error kinds and result wrappers shared by every locator.

  The locators report failure by throwing .NET exceptions; the model returns
  them as values. A mutating operation returns the state the object holds
  once the call has returned or thrown, together with its status.
 */
module Errors {

  /** The exception kinds the locators raise or let through. */
  datatype Error =
    | ArgumentNull(param: string)        // ArgumentNullException(param)
    | ArgumentOutOfRange(param: string)  // ArgumentOutOfRangeException(param): duplicate key
    | KeyNotFound                        // Dictionary indexer on a missing key
    | FileNotFound                       // FileNotFoundException
    | DirectoryNotFound                  // DirectoryNotFoundException
    | NotSupported                       // NotSupportedException: no format matched
    | NullReference                      // use of a member released by Dispose
    | InvalidFormat                      // failure raised by an external codec

  datatype Option<+T> = None | Some(value: T)

  datatype Result<+T> = Ok(value: T) | Err(error: Error)

  /** Outcome of a call that returns nothing but may throw. */
  datatype Status = Pass | Fail(error: Error)

  /** The state an object holds after a call, and how the call ended. */
  datatype Step<+S> = Step(state: S, status: Status)

  /** Bytes of a file or stream. */
  newtype byte = x: int | 0 <= x < 256

  type Bytes = seq<byte>
}

=== FILE: file_locator_factory.dfy ===
/**
  FileLocatorFactory: picks the read locator for a root. A root with an
  extension is an archive; any other root is a directory on the host (or,
  layered, under a parent locator). The directory locators are not part of
  this model beyond the host check their constructor makes, and are named
  by the arguments they are built from.
 */
module FileLocatorFactory {
  import opened Errors
  import opened Paths
  import ArchiveView
  import Locators

  datatype ReadLocator =
    | ArchiveReader(a: ArchiveView.ArchiveLocator)
    | DirectoryReader(root: string)
    | LayeredDirectoryReader(parent: Locators.Locator, root: string)

  /** The archive codec applied to a host file. */
  type HostArchive = string -> Result<seq<ArchiveView.ArchiveEntry>>

  /** The archive codec applied to an opened stream's bytes. */
  type Decoder = Bytes -> Result<seq<ArchiveView.ArchiveEntry>>

  /** Directory.Exists on the host. */
  type Directories = string -> bool

  /** Create(root): null or "" throws ArgumentNullException; a root with an
      extension opens the archive file at `root`; any other root is a host
      directory, which must exist (DirectoryNotFoundException otherwise). */
  function Create(p: Platform, root: string, host: HostArchive, decode: Decoder, dirs: Directories)
    : (r: Result<ReadLocator>)
    ensures root == [] ==> r == Err(ArgumentNull("root"))
    ensures root != [] && !HasExtension(p, root) && dirs(root) ==> r == Ok(DirectoryReader(root))
    ensures root != [] && !HasExtension(p, root) && !dirs(root) ==> r == Err(DirectoryNotFound)
    ensures root != [] && HasExtension(p, root) ==>
      && (r.Ok? <==> host(root).Ok?)
      && (r.Err? ==> r.error == host(root).error)
      && (r.Ok? ==> r.value.ArchiveReader? && !r.value.a.borrowed && r.value.a.archive == Some(host(root).value))
  {
    if root == [] then Err(ArgumentNull("root"))
    else if HasExtension(p, root) then
      match Locators.OpenLayered(p, None, root, host, decode)
      case Ok(a) => Ok(ArchiveReader(a))
      case Err(e) => Err(e)
    else if dirs(root) then Ok(DirectoryReader(root))
    else Err(DirectoryNotFound)
  }

  /** Create(locator, root): the null locator is reported before the null
      root; "" is accepted. A root with an extension is an archive read
      through the parent locator, any other root a directory under it; the
      directory locator checks the host only when it has no parent, so here
      it never throws. */
  function CreateLayered(p: Platform, parent: Option<Locators.Locator>, root: Option<string>,
                         host: HostArchive, decode: Decoder): (r: Result<ReadLocator>)
    ensures parent.None? ==> r == Err(ArgumentNull("locator"))
    ensures parent.Some? && root.None? ==> r == Err(ArgumentNull("root"))
    ensures parent.Some? && root.Some? && !HasExtension(p, root.value) ==>
      r == Ok(LayeredDirectoryReader(parent.value, root.value))
    ensures parent.Some? && root.Some? && HasExtension(p, root.value) ==>
      var o := Locators.Open(p, parent.value, root.value);
      && (o.Err? ==> r == Err(o.error))
      && (o.Ok? ==> (r.Ok? <==> decode(o.value).Ok?))
      && (o.Ok? && r.Err? ==> r.error == decode(o.value).error)
      && (r.Ok? ==> r.value.ArchiveReader? && r.value.a.borrowed && r.value.a.archive == Some(decode(o.value).value))
  {
    if parent.None? then Err(ArgumentNull("locator"))
    else if root.None? then Err(ArgumentNull("root"))
    else if HasExtension(p, root.value) then
      match Locators.OpenLayered(p, parent, root.value, host, decode)
      case Ok(a) => Ok(ArchiveReader(a))
      case Err(e) => Err(e)
    else Ok(LayeredDirectoryReader(parent.value, root.value))
  }

  /** Create(stream): a null stream throws ArgumentNullException; otherwise
      the stream is decoded as an archive, which borrows nothing. */
  function CreateFromStream(stream: Option<Bytes>, decode: Decoder): (r: Result<ReadLocator>)
    ensures stream.None? ==> r == Err(ArgumentNull("root"))
    ensures stream.Some? ==> (r.Ok? <==> decode(stream.value).Ok?)
    ensures stream.Some? && r.Err? ==> r.error == decode(stream.value).error
    ensures r.Ok? ==> r.value.ArchiveReader? && !r.value.a.borrowed && r.value.a.archive == Some(decode(stream.value).value)
  {
    match stream
    case None => Err(ArgumentNull("root"))
    case Some(bytes) =>
      match decode(bytes)
      case Ok(es) => Ok(ArchiveReader(ArchiveView.OpenEntries(es)))
      case Err(e) => Err(e)
  }

  /** The factory returned an archive view. */
  predicate PicksArchive(r: Result<ReadLocator>) {
    r.Ok? && r.value.ArchiveReader?
  }

  /** The host and the layered factories dispatch the same way: for a
      non-empty root that opens and decodes on both sides (and, without an
      extension, names an existing directory), both pick an archive or both
      pick a directory, and the layered one always reports the parent it was
      given. */
  lemma LayeredDispatchAgrees(p: Platform, l: Locators.Locator, root: string, host: HostArchive, decode: Decoder,
                              dirs: Directories)
    requires root != []
    requires Create(p, root, host, decode, dirs).Ok? && CreateLayered(p, Some(l), Some(root), host, decode).Ok?
    ensures PicksArchive(Create(p, root, host, decode, dirs)) <==> PicksArchive(CreateLayered(p, Some(l), Some(root), host, decode))
    ensures PicksArchive(Create(p, root, host, decode, dirs)) <==> Extension(p, root) != []
    ensures !PicksArchive(CreateLayered(p, Some(l), Some(root), host, decode)) ==>
      CreateLayered(p, Some(l), Some(root), host, decode).value.parent == l
  {
    HasExtensionIffExtension(p, root);
  }

  /** The layered directory locator never consults the host: a root without
      an extension is a directory under the parent whether or not the host
      has it, where the host factory throws DirectoryNotFoundException. */
  lemma LayeredIgnoresHostDirectories(p: Platform, l: Locators.Locator, root: string, host: HostArchive,
                                      decode: Decoder, dirs: Directories)
    requires root != [] && !HasExtension(p, root) && !dirs(root)
    ensures Create(p, root, host, decode, dirs) == Err(DirectoryNotFound)
    ensures CreateLayered(p, Some(l), Some(root), host, decode) == Ok(LayeredDirectoryReader(l, root))
  {
  }

  /** The layered factory accepts "" as a root (a directory under the parent)
      where the host factory throws. */
  lemma LayeredAcceptsEmptyRoot(p: Platform, l: Locators.Locator, host: HostArchive, decode: Decoder, dirs: Directories)
    ensures CreateLayered(p, Some(l), Some([]), host, decode) == Ok(LayeredDirectoryReader(l, []))
    ensures Create(p, [], host, decode, dirs) == Err(ArgumentNull("root"))
  {
    assert !HasExtensionBefore(p, [], 0);
  }

  /** A root ending in ".zip" is an archive, whatever directories exist. */
  lemma ArchiveRootExample(host: HostArchive, decode: Decoder, dirs: Directories)
    requires host("a.zip").Ok?
    ensures PicksArchive(Create(Windows, "a.zip", host, decode, dirs))
  {
    var s := "a.zip";
    ExtensionFound(Windows, s, |s|, 1);
    HasExtensionIffExtension(Windows, s);
  }

  /** A dot inside a directory name is not an extension: "a.b\\c" is a
      directory root, and so is "a." (a trailing dot); each gives the
      directory locator when the directory exists and throws
      DirectoryNotFoundException when it does not. */
  lemma DottedDirectoryExample(host: HostArchive, decode: Decoder, dirs: Directories)
    ensures Create(Windows, "a.b\\c", host, decode, dirs) ==
      if dirs("a.b\\c") then Ok(DirectoryReader("a.b\\c")) else Err(DirectoryNotFound)
    ensures Create(Windows, "a.", host, decode, dirs) ==
      if dirs("a.") then Ok(DirectoryReader("a.")) else Err(DirectoryNotFound)
  {
    var s := "a.b\\c";
    assert IsSeparator(Windows, s[3]);
    assert !HasExtensionBefore(Windows, s, 4);
    assert !HasExtensionBefore(Windows, s, 5);
    var t := "a.";
    assert !HasExtensionBefore(Windows, t, 2);
  }
}

=== FILE: formats.dfy ===
/**
  The archive codec's configuration tags. The locators pass them through
  unchanged to the codec, so the model keeps them opaque: only their
  identity matters.
 */
module Formats {

  /** SharpCompress.Common.ArchiveType. */
  datatype ArchiveType = Rar | Zip | Tar | SevenZip | GZip

  /** SharpCompress.Common.CompressionType. */
  datatype CompressionType =
    | Uncompressed | GZipCompression | BZip2 | PPMd | Deflate | RarCompression
    | LZMA | BCJ | BCJ2 | LZip | Xz | Unknown | Deflate64

  /** The Deflate compression level (named levels only). */
  datatype CompressionLevel = NoCompression | BestSpeed | Default | BestCompression

  /** The configuration a writable archive locator is built with. */
  datatype WriterConfig = WriterConfig(archiveType: ArchiveType, compression: CompressionType, level: CompressionLevel)
}

=== FILE: locators.dfy ===
/**
  The read side every locator shares (IFileLocator): Exists, Open and
  EnumerateFiles over the in-memory store or an archive view, the
  MemoryFileLocator.WriteAll copy that reads through that interface, and the
  layered ArchiveFileLocator constructor that opens its archive through a
  parent locator.

  The archive codec is a parameter: `decode` turns an archive's bytes into
  its entries, `host` opens the archive file at a host path.
 */
module Locators {
  import opened Errors
  import opened Paths
  import MemoryStore
  import ArchiveView

  /** An IFileLocator: the in-memory store or an archive view. */
  datatype Locator = Memory(m: MemoryStore.MemoryLocator) | Archive(a: ArchiveView.ArchiveLocator)

  function Exists(p: Platform, l: Locator, path: string): Result<bool> {
    match l
    case Memory(m) => Ok(MemoryStore.Exists(p, m, path))
    case Archive(a) => ArchiveView.Exists(p, a, path)
  }

  function Open(p: Platform, l: Locator, path: string): Result<Bytes> {
    match l
    case Memory(m) => MemoryStore.Open(p, m, path)
    case Archive(a) => ArchiveView.Open(p, a, path)
  }

  function EnumerateFiles(p: Platform, l: Locator, root: string): Result<seq<string>> {
    match l
    case Memory(m) => Ok(MemoryStore.EnumerateFiles(p, m, root))
    case Archive(a) => ArchiveView.EnumerateFiles(p, a, root)
  }

  /** On every locator, a path that opens exists. */
  lemma OpenImpliesExists(p: Platform, l: Locator, path: string)
    ensures Open(p, l, path).Ok? ==> Exists(p, l, path) == Ok(true)
  {
  }

  /** Every non-empty path a locator enumerates can be opened on it. */
  lemma EnumeratedFilesOpen(p: Platform, l: Locator, root: string, x: string)
    requires l.Memory? ==> MemoryStore.Valid(p, l.m)
    requires EnumerateFiles(p, l, root).Ok? && x in EnumerateFiles(p, l, root).value
    requires x != []
    ensures Open(p, l, x).Ok?
  {
    match l
    case Memory(m) =>
      var i :| 0 <= i < |m.entries| && m.entries[i].key == x;
    case Archive(a) =>
      var es := a.archive.value;
      var i := ArchiveView.ListFilesSource(p, es, root, x);
      NormalizeIdempotent(p, es[i].key);
      assert ArchiveView.Matches(p, es[i], x);
  }

  // MemoryFileLocator.WriteAll(locator, root)

  /** Each of `files` paired with what `src` opens for it. Opening has no
      side effect on the locator, so opening every file up front is the same
      as opening each just before it is written. */
  function OpenEach(p: Platform, src: Locator, files: seq<string>): (r: seq<(string, Result<Bytes>)>)
    ensures |r| == |files|
    ensures forall i :: 0 <= i < |files| ==> r[i].0 == files[i]
  {
    if files == [] then [] else [(files[0], Open(p, src, files[0]))] + OpenEach(p, src, files[1..])
  }

  lemma {:induction false} OpenEachOpens(p: Platform, src: Locator, files: seq<string>)
    ensures forall i :: 0 <= i < |files| ==> OpenEach(p, src, files)[i].1 == Open(p, src, files[i])
  {
    if files != [] {
      OpenEachOpens(p, src, files[1..]);
      assert forall i :: 0 < i < |files| ==> OpenEach(p, src, files)[i] == OpenEach(p, src, files[1..])[i - 1];
    }
  }

  /** `m2` is `m` followed by copies of the first few `items`, each stored
      under its normalized path with the content that was opened for it. */
  predicate CopiedPrefix(p: Platform, m: MemoryStore.MemoryLocator, items: seq<(string, Result<Bytes>)>,
                         m2: MemoryStore.MemoryLocator)
  {
    && |m.entries| <= |m2.entries| <= |m.entries| + |items|
    && m2.entries[..|m.entries|] == m.entries
    && forall i :: 0 <= i < |m2.entries| - |m.entries| ==>
         && items[i].1.Ok?
         && m2.entries[|m.entries| + i] == MemoryStore.Entry(Normalize(p, items[i].0), items[i].1.value)
  }

  /** Why copying `item` failed, given the store it failed on: the open
      failed, or its normalized path was already a key. */
  predicate CopyFailure(p: Platform, m: MemoryStore.MemoryLocator, item: (string, Result<Bytes>), e: Error) {
    match item.1
    case Err(oe) => e == oe
    case Ok(_) => e == ArgumentOutOfRange("path") && MemoryStore.Exists(p, m, item.0)
  }

  /** The copy loop: Write each opened file, in order; the first exception
      ends the loop and the writes before it stay. */
  function WriteFiles(p: Platform, m: MemoryStore.MemoryLocator, items: seq<(string, Result<Bytes>)>)
    : (r: Step<MemoryStore.MemoryLocator>)
    ensures CopiedPrefix(p, m, items, r.state)
    ensures r.status.Pass? <==> |r.state.entries| == |m.entries| + |items|
    ensures r.status.Fail? ==>
      var n := |r.state.entries| - |m.entries|;
      n < |items| && CopyFailure(p, r.state, items[n], r.status.error)
    decreases |items|
  {
    if items == [] then Step(m, Pass)
    else match items[0].1
      case Err(e) => Step(m, Fail(e))
      case Ok(d) =>
        var s := MemoryStore.Write(p, m, items[0].0, Some(d));
        if s.status.Fail? then s
        else
          var r := WriteFiles(p, s.state, items[1..]);
          CopiedPrefixStep(p, m, items, s.state, r);
          r
  }

  lemma CopiedPrefixStep(p: Platform, m: MemoryStore.MemoryLocator, items: seq<(string, Result<Bytes>)>,
                         m1: MemoryStore.MemoryLocator, r: Step<MemoryStore.MemoryLocator>)
    requires items != [] && items[0].1.Ok?
    requires m1.entries == m.entries + [MemoryStore.Entry(Normalize(p, items[0].0), items[0].1.value)]
    requires CopiedPrefix(p, m1, items[1..], r.state)
    requires r.status.Fail? ==>
      var n := |r.state.entries| - |m1.entries|;
      n < |items[1..]| && CopyFailure(p, r.state, items[1..][n], r.status.error)
    ensures CopiedPrefix(p, m, items, r.state)
    ensures r.status.Fail? ==>
      var n := |r.state.entries| - |m.entries|;
      n < |items| && CopyFailure(p, r.state, items[n], r.status.error)
  {
    var m2 := r.state;
    assert m2.entries[..|m.entries|] == m2.entries[..|m1.entries|][..|m.entries|];
    forall i | 0 < i < |m2.entries| - |m.entries|
      ensures m2.entries[|m.entries| + i] == m2.entries[|m1.entries| + (i - 1)]
      ensures items[i] == items[1..][i - 1]
    {
    }
    assert m2.entries[|m.entries|] == m2.entries[..|m1.entries|][|m.entries|];
  }

  /** WriteAll(locator, root): ArgumentNullException for a null locator;
      otherwise each file the locator enumerates under `root` is opened and
      written, in order, up to the first failure. WriteAll(locator) is
      WriteAll(locator, ""). */
  function MemoryWriteAll(p: Platform, m: MemoryStore.MemoryLocator, src: Option<Locator>, root: string)
    : (r: Step<MemoryStore.MemoryLocator>)
    ensures src.None? ==> r == Step(m, Fail(ArgumentNull("locator")))
    ensures src.Some? && EnumerateFiles(p, src.value, root).Err? ==>
      r == Step(m, Fail(EnumerateFiles(p, src.value, root).error))
    ensures src.Some? && EnumerateFiles(p, src.value, root).Ok? ==>
      r == WriteFiles(p, m, OpenEach(p, src.value, EnumerateFiles(p, src.value, root).value))
  {
    match src
    case None => Step(m, Fail(ArgumentNull("locator")))
    case Some(l) =>
      match EnumerateFiles(p, l, root)
      case Err(e) => Step(m, Fail(e))
      case Ok(files) => WriteFiles(p, m, OpenEach(p, l, files))
  }

  /** What WriteAll leaves behind: the files of the enumeration, each
      stored under its normalized path with the content opened for it, in
      order, up to the first failure, which names the failing file's cause. */
  lemma MemoryWriteAllCopies(p: Platform, m: MemoryStore.MemoryLocator, l: Locator, root: string)
    requires EnumerateFiles(p, l, root).Ok?
    ensures var r := MemoryWriteAll(p, m, Some(l), root);
      var items := OpenEach(p, l, EnumerateFiles(p, l, root).value);
      && CopiedPrefix(p, m, items, r.state)
      && (r.status.Pass? <==> |r.state.entries| == |m.entries| + |items|)
      && (r.status.Fail? ==>
            var n := |r.state.entries| - |m.entries|;
            n < |items| && CopyFailure(p, r.state, items[n], r.status.error))
  {
    var items := OpenEach(p, l, EnumerateFiles(p, l, root).value);
    var r := MemoryWriteAll(p, m, Some(l), root);
    assert r == WriteFiles(p, m, items);
  }

  /** The copy keeps the store valid: every key normalized, none twice. */
  lemma {:induction false} WriteFilesKeepsValid(p: Platform, m: MemoryStore.MemoryLocator,
                                                items: seq<(string, Result<Bytes>)>)
    requires MemoryStore.Valid(p, m)
    ensures MemoryStore.Valid(p, WriteFiles(p, m, items).state)
    decreases |items|
  {
    if items != [] && items[0].1.Ok? {
      var s := MemoryStore.Write(p, m, items[0].0, Some(items[0].1.value));
      if s.status.Pass? {
        MemoryStore.StoreKeepsValid(p, m, items[0].0, Some(items[0].1.value));
        WriteFilesKeepsValid(p, s.state, items[1..]);
      }
    }
  }

  lemma MemoryWriteAllKeepsValid(p: Platform, m: MemoryStore.MemoryLocator, src: Option<Locator>, root: string)
    requires MemoryStore.Valid(p, m)
    ensures MemoryStore.Valid(p, MemoryWriteAll(p, m, src, root).state)
  {
    if src.Some? && EnumerateFiles(p, src.value, root).Ok? {
      WriteFilesKeepsValid(p, m, OpenEach(p, src.value, EnumerateFiles(p, src.value, root).value));
    }
  }

  /** Copying a store into an empty store reproduces it, entry for entry and
      in the same order. */
  lemma CopyIntoEmptyIsIdentity(p: Platform, m0: MemoryStore.MemoryLocator)
    requires MemoryStore.Valid(p, m0)
    ensures MemoryWriteAll(p, MemoryStore.New(), Some(Memory(m0)), []) == Step(m0, Pass)
  {
    var files := MemoryStore.Keys(m0);
    SelectUnderEmptyRoot(p, files);
    assert MemoryWriteAll(p, MemoryStore.New(), Some(Memory(m0)), []) ==
      WriteFiles(p, MemoryStore.New(), OpenEach(p, Memory(m0), files));
    CopyLoopIsIdentity(p, m0);
  }

  lemma CopyLoopIsIdentity(p: Platform, m0: MemoryStore.MemoryLocator)
    requires MemoryStore.Valid(p, m0)
    ensures WriteFiles(p, MemoryStore.New(), OpenEach(p, Memory(m0), MemoryStore.Keys(m0))) == Step(m0, Pass)
  {
    var files := MemoryStore.Keys(m0);
    var r := WriteFiles(p, MemoryStore.New(), OpenEach(p, Memory(m0), files));
    CopyIsPrefix(p, m0, r.state);
    CopyOfStorePasses(p, m0);
    assert |r.state.entries| == |m0.entries|;
    assert r.state.entries == m0.entries[..|m0.entries|] == m0.entries;
  }

  lemma CopyOfStorePasses(p: Platform, m0: MemoryStore.MemoryLocator)
    requires MemoryStore.Valid(p, m0)
    ensures WriteFiles(p, MemoryStore.New(), OpenEach(p, Memory(m0), MemoryStore.Keys(m0))).status.Pass?
  {
    var files := MemoryStore.Keys(m0);
    var r := WriteFiles(p, MemoryStore.New(), OpenEach(p, Memory(m0), files));
    CopyIsPrefix(p, m0, r.state);
    NextCopyPasses(p, m0, r.state);
  }

  /** The file after a copied prefix of a store opens, and its key is not
      yet taken. */
  lemma NextCopyPasses(p: Platform, m0: MemoryStore.MemoryLocator, m2: MemoryStore.MemoryLocator)
    requires MemoryStore.Valid(p, m0)
    requires |m2.entries| <= |m0.entries| && m2.entries == m0.entries[..|m2.entries|]
    ensures var files := MemoryStore.Keys(m0);
      var n := |m2.entries|;
      n < |files| ==>
        && OpenEach(p, Memory(m0), files)[n].1.Ok?
        && !MemoryStore.Exists(p, m2, files[n])
  {
    var files := MemoryStore.Keys(m0);
    var n := |m2.entries|;
    if n < |files| {
      OpenEachOpens(p, Memory(m0), files);
      MemoryStore.LookupUnique(m0.entries, files[n], m0.entries[n].data);
      CopyNeverCollides(p, m0, m2);
    }
  }

  /** Whatever the copy of a store has written so far is a prefix of it. */
  lemma CopyIsPrefix(p: Platform, m0: MemoryStore.MemoryLocator, m2: MemoryStore.MemoryLocator)
    requires MemoryStore.Valid(p, m0)
    requires CopiedPrefix(p, MemoryStore.New(), OpenEach(p, Memory(m0), MemoryStore.Keys(m0)), m2)
    ensures m2.entries == m0.entries[..|m2.entries|]
  {
    var files := MemoryStore.Keys(m0);
    var items := OpenEach(p, Memory(m0), files);
    OpenEachOpens(p, Memory(m0), files);
    forall i | 0 <= i < |m2.entries|
      ensures m2.entries[i] == m0.entries[i]
    {
      MemoryStore.LookupUnique(m0.entries, files[i], m0.entries[i].data);
      assert m2.entries[0 + i] == MemoryStore.Entry(Normalize(p, items[i].0), items[i].1.value);
    }
  }

  /** The next key of a store is never among the keys already copied. */
  lemma CopyNeverCollides(p: Platform, m0: MemoryStore.MemoryLocator, m2: MemoryStore.MemoryLocator)
    requires MemoryStore.Valid(p, m0)
    requires |m2.entries| < |m0.entries| && m2.entries == m0.entries[..|m2.entries|]
    ensures !MemoryStore.Exists(p, m2, MemoryStore.Keys(m0)[|m2.entries|])
  {
    var n := |m2.entries|;
    var k := m0.entries[n].key;
    assert Normalize(p, k) == k;
    assert forall j :: 0 <= j < n ==> m2.entries[j] == m0.entries[j];
  }

  // The layered ArchiveFileLocator(locator, root) constructor.

  /** With a parent locator the archive is decoded from the stream the parent
      opens at `root`, which the view then holds (borrowed); without one, it
      is the archive file at the host path `root`. */
  function OpenLayered(p: Platform, parent: Option<Locator>, root: string,
                       host: string -> Result<seq<ArchiveView.ArchiveEntry>>,
                       decode: Bytes -> Result<seq<ArchiveView.ArchiveEntry>>)
    : (r: Result<ArchiveView.ArchiveLocator>)
    ensures r.Ok? ==> r.value.borrowed == parent.Some? && r.value.archive.Some?
    ensures parent.None? ==> (r.Ok? <==> host(root).Ok?) && (r.Ok? ==> r.value.archive == Some(host(root).value))
    ensures parent.None? && r.Err? ==> r.error == host(root).error
    ensures parent.Some? && Open(p, parent.value, root).Err? ==> r == Err(Open(p, parent.value, root).error)
    ensures parent.Some? && Open(p, parent.value, root).Ok? ==>
      var d := decode(Open(p, parent.value, root).value);
      && (r.Ok? <==> d.Ok?)
      && (r.Ok? ==> r.value.archive == Some(d.value))
      && (r.Err? ==> r.error == d.error)
  {
    match parent
    case None =>
      (match host(root)
       case Ok(es) => Ok(ArchiveView.OpenEntries(es))
       case Err(e) => Err(e))
    case Some(l) =>
      match Open(p, l, root)
      case Err(e) => Err(e)
      case Ok(bytes) =>
        match decode(bytes)
        case Ok(es) => Ok(ArchiveView.ArchiveLocator(true, Some(es)))
        case Err(e) => Err(e)
  }

  /** Disposing a layered view releases the borrowed stream before the
      archive; a view opened from a host path releases only the archive. */
  lemma LayeredDisposeOrder(p: Platform, parent: Option<Locator>, root: string,
                            host: string -> Result<seq<ArchiveView.ArchiveEntry>>,
                            decode: Bytes -> Result<seq<ArchiveView.ArchiveEntry>>)
    requires OpenLayered(p, parent, root, host, decode).Ok?
    ensures var a := OpenLayered(p, parent, root, host, decode).value;
      ArchiveView.Dispose(a).1 == (if parent.Some? then [ArchiveView.BorrowedStream, ArchiveView.Archive] else [ArchiveView.Archive])
  {
  }
}

=== FILE: memory_store.dfy ===
/**
  MemoryFileLocator: an insertion-ordered dictionary from normalized path to
  bytes. Keys are compared exactly (case-sensitively), unlike the archive
  view. WriteAll, which reads from any locator, is in module Locators.
 */
module MemoryStore {
  import opened Errors
  import opened Paths

  datatype Entry = Entry(key: string, data: Bytes)

  /** The dictionary's entries in insertion order. */
  datatype MemoryLocator = MemoryLocator(entries: seq<Entry>)

  function KeysOf(es: seq<Entry>): (ks: seq<string>)
    ensures |ks| == |es|
    ensures forall i :: 0 <= i < |es| ==> ks[i] == es[i].key
  {
    if es == [] then [] else [es[0].key] + KeysOf(es[1..])
  }

  function Keys(m: MemoryLocator): seq<string> {
    KeysOf(m.entries)
  }

  /** Every key is a normalized path (all stores go through Normalize) and
      the dictionary never holds a key twice. */
  ghost predicate Valid(p: Platform, m: MemoryLocator) {
    && (forall i :: 0 <= i < |m.entries| ==> Normalize(p, m.entries[i].key) == m.entries[i].key)
    && (forall i, j :: 0 <= i < j < |m.entries| ==> m.entries[i].key != m.entries[j].key)
  }

  /** The content stored under `key`, if any. */
  function Lookup(es: seq<Entry>, key: string): (r: Option<Bytes>)
    ensures r.Some? <==> key in KeysOf(es)
    ensures r.Some? ==> Entry(key, r.value) in es
  {
    if es == [] then None
    else if es[0].key == key then Some(es[0].data)
    else
      assert KeysOf(es) == [es[0].key] + KeysOf(es[1..]);
      Lookup(es[1..], key)
  }

  lemma {:induction false} LookupAppend(es: seq<Entry>, e: Entry, key: string)
    requires key != e.key
    ensures Lookup(es + [e], key) == Lookup(es, key)
  {
    if es != [] {
      assert (es + [e])[1..] == es[1..] + [e];
      LookupAppend(es[1..], e, key);
    }
  }

  lemma {:induction false} LookupUnique(es: seq<Entry>, key: string, d: Bytes)
    requires forall i, j :: 0 <= i < j < |es| ==> es[i].key != es[j].key
    requires Entry(key, d) in es
    ensures Lookup(es, key) == Some(d)
  {
    if es[0] != Entry(key, d) {
      assert Entry(key, d) in es[1..];
      LookupUnique(es[1..], key, d);
    }
  }

  lemma {:induction false} KeysOfAppend(es: seq<Entry>, e: Entry)
    ensures KeysOf(es + [e]) == KeysOf(es) + [e.key]
  {
  }

  /** A new locator holds nothing. */
  function New(): (m: MemoryLocator)
    ensures forall p :: Valid(p, m)
    ensures IsEmpty(m)
    ensures Keys(m) == []
  {
    MemoryLocator([])
  }

  predicate IsEmpty(m: MemoryLocator) {
    |m.entries| == 0
  }

  /** IsEmpty holds exactly when no key exists. */
  lemma IsEmptyIffNoKey(p: Platform, m: MemoryLocator)
    requires Valid(p, m)
    ensures IsEmpty(m) <==> forall path :: !Exists(p, m, path)
  {
    if !IsEmpty(m) {
      var k := m.entries[0].key;
      assert k in Keys(m);
      assert Exists(p, m, k);
    }
  }

  function Clear(m: MemoryLocator): (r: MemoryLocator)
    ensures IsEmpty(r) && Keys(r) == []
  {
    MemoryLocator([])
  }

  /** Exists: the normalized path is a key, compared case-sensitively. */
  predicate Exists(p: Platform, m: MemoryLocator, path: string) {
    Normalize(p, path) in Keys(m)
  }

  /** Open: the bytes under the normalized path; the dictionary indexer
      throws KeyNotFoundException when it is absent. */
  function Open(p: Platform, m: MemoryLocator, path: string): (r: Result<Bytes>)
    ensures r.Ok? <==> Exists(p, m, path)
    ensures r.Err? ==> r.error == KeyNotFound
    ensures r.Ok? ==> Entry(Normalize(p, path), r.value) in m.entries
  {
    match Lookup(m.entries, Normalize(p, path))
    case Some(d) => Ok(d)
    case None => Err(KeyNotFound)
  }

  /** EnumerateFiles(root): the stored keys under `root`, in insertion order. */
  function EnumerateFiles(p: Platform, m: MemoryLocator, root: string): (r: seq<string>)
    ensures forall k :: k in r <==> k in Keys(m) && PathStartsWith(p, k, root)
  {
    SelectUnder(p, Keys(m), root)
  }

  /** EnumerateFiles() is EnumerateFiles(""): every key, in insertion order. */
  function EnumerateAll(p: Platform, m: MemoryLocator): (r: seq<string>)
    ensures r == Keys(m)
  {
    SelectUnderEmptyRoot(p, Keys(m));
    EnumerateFiles(p, m, [])
  }

  /** Create: add the normalized path with zero-length content. The guard
      against a null or empty argument tests the literal "path", so it never
      fires: "" is stored under key "". */
  function Create(p: Platform, m: MemoryLocator, path: string): (r: Step<MemoryLocator>)
    ensures r.status.Pass? <==> !Exists(p, m, path)
    ensures r.status.Fail? ==> r.state == m && r.status.error == ArgumentOutOfRange("path")
    ensures r.status.Pass? ==> r.state.entries == m.entries + [Entry(Normalize(p, path), [])]
    ensures r.status.Pass? ==> Keys(r.state) == Keys(m) + [Normalize(p, path)]
  {
    var key := Normalize(p, path);
    if key in Keys(m) then Step(m, Fail(ArgumentOutOfRange("path")))
    else Append(p, m, path, [])
  }

  /** Write: add the normalized path with the stream's bytes; a null stream
      is rejected first. The path guard never fires, as in Create. */
  function Write(p: Platform, m: MemoryLocator, path: string, data: Option<Bytes>): (r: Step<MemoryLocator>)
    ensures r.status.Pass? <==> data.Some? && !Exists(p, m, path)
    ensures data.None? ==> r.state == m && r.status == Fail(ArgumentNull("data"))
    ensures data.Some? && Exists(p, m, path) ==> r.state == m && r.status == Fail(ArgumentOutOfRange("path"))
    ensures r.status.Pass? ==> r.state.entries == m.entries + [Entry(Normalize(p, path), data.value)]
    ensures r.status.Pass? ==> Keys(r.state) == Keys(m) + [Normalize(p, path)]
  {
    if data.None? then Step(m, Fail(ArgumentNull("data")))
    else if Normalize(p, path) in Keys(m) then Step(m, Fail(ArgumentOutOfRange("path")))
    else Append(p, m, path, data.value)
  }

  /** Dictionary.Add of a fresh normalized key. */
  function Append(p: Platform, m: MemoryLocator, path: string, d: Bytes): (r: Step<MemoryLocator>)
    requires !Exists(p, m, path)
    ensures r.status == Pass
    ensures r.state.entries == m.entries + [Entry(Normalize(p, path), d)]
    ensures Keys(r.state) == Keys(m) + [Normalize(p, path)]
  {
    var key := Normalize(p, path);
    var e := Entry(key, d);
    KeysOfAppend(m.entries, e);
    Step(MemoryLocator(m.entries + [e]), Pass)
  }

  /** Create and Write leave every other normalized path as it was: what it
      opens to, or that it is absent. */
  lemma StoreKeepsOtherPaths(p: Platform, m: MemoryLocator, path: string, data: Option<Bytes>, q: string)
    requires Normalize(p, q) != Normalize(p, path)
    ensures Open(p, Create(p, m, path).state, q) == Open(p, m, q)
    ensures Open(p, Write(p, m, path, data).state, q) == Open(p, m, q)
  {
    LookupAppend(m.entries, Entry(Normalize(p, path), []), Normalize(p, q));
    if data.Some? {
      LookupAppend(m.entries, Entry(Normalize(p, path), data.value), Normalize(p, q));
    }
  }

  /** Create and Write keep the store valid. */
  lemma StoreKeepsValid(p: Platform, m: MemoryLocator, path: string, data: Option<Bytes>)
    requires Valid(p, m)
    ensures Valid(p, Create(p, m, path).state)
    ensures Valid(p, Write(p, m, path, data).state)
  {
    if !Exists(p, m, path) {
      AppendValid(p, m, path, Entry(Normalize(p, path), []));
      if data.Some? {
        AppendValid(p, m, path, Entry(Normalize(p, path), data.value));
      }
    }
  }

  lemma AppendValid(p: Platform, m: MemoryLocator, path: string, e: Entry)
    requires e.key == Normalize(p, path) && e.key !in Keys(m)
    ensures Valid(p, m) ==> Valid(p, MemoryLocator(m.entries + [e]))
  {
    forall i | 0 <= i < |m.entries| ensures m.entries[i].key != e.key {
      assert m.entries[i].key in KeysOf(m.entries);
    }
    NormalizeIdempotent(p, path);
  }

  lemma {:induction false} LookupFresh(es: seq<Entry>, e: Entry)
    requires e.key !in KeysOf(es)
    ensures Lookup(es + [e], e.key) == Some(e.data)
  {
    if es != [] {
      assert KeysOf(es) == [es[0].key] + KeysOf(es[1..]);
      assert (es + [e])[1..] == es[1..] + [e];
      LookupFresh(es[1..], e);
    }
  }

  /** Enumeration keeps insertion order: a successful Create or Write adds its
      key at the end of every enumeration whose root it matches. */
  lemma EnumerateAfterStore(p: Platform, m: MemoryLocator, path: string, data: Option<Bytes>, root: string)
    requires !Exists(p, m, path)
    ensures var key := Normalize(p, path);
      EnumerateFiles(p, Create(p, m, path).state, root)
        == EnumerateFiles(p, m, root) + (if PathStartsWith(p, key, root) then [key] else [])
    ensures var key := Normalize(p, path);
      data.Some? ==>
        EnumerateFiles(p, Write(p, m, path, data).state, root)
          == EnumerateFiles(p, m, root) + (if PathStartsWith(p, key, root) then [key] else [])
  {
    SelectUnderAppend(p, Keys(m), Normalize(p, path), root);
  }

  /** Round trip: what Create or Write stored under a new path, Open
      returns. */
  lemma WriteThenOpen(p: Platform, m: MemoryLocator, path: string, d: Bytes)
    requires !Exists(p, m, path)
    ensures Open(p, Write(p, m, path, Some(d)).state, path) == Ok(d)
    ensures Open(p, Create(p, m, path).state, path) == Ok([])
  {
    LookupFresh(m.entries, Entry(Normalize(p, path), d));
    LookupFresh(m.entries, Entry(Normalize(p, path), []));
  }

  /** The store compares keys exactly: with a case-folding host, "A" is not
      found after creating "a" (the archive view would find it). */
  lemma ExistsIsCaseSensitive()
    ensures Create(Unix, New(), "a").status.Pass?
    ensures !Exists(Unix, Create(Unix, New(), "a").state, "A")
  {
    assert Replace("a", '/', '/') == "a";
    NormalizeUnique(Unix, "a", "a");
    assert Replace("A", '/', '/') == "A";
    NormalizeUnique(Unix, "A", "A");
  }

  /** Creating two distinct normalized paths in a new store enumerates them
      in creation order, and both exist. */
  lemma CreateTwoInOrder(p: Platform, a: string, b: string)
    requires Normalize(p, a) == a && Normalize(p, b) == b && a != b
    ensures var m1 := Create(p, New(), a);
      var m2 := Create(p, m1.state, b);
      && m1.status.Pass? && m2.status.Pass?
      && EnumerateAll(p, m2.state) == [a, b]
      && Exists(p, m2.state, a) && Exists(p, m2.state, b)
  {
    var m1 := Create(p, New(), a);
    assert Keys(m1.state) == [a];
    var m2 := Create(p, m1.state, b);
    assert Keys(m2.state) == [a, b];
  }

  /** Creating "test1" then "test2" in a new store enumerates them in that
      order, and both exist. */
  lemma CreateTwoThenEnumerate()
    ensures var m1 := Create(Unix, New(), "test1");
      var m2 := Create(Unix, m1.state, "test2");
      && m1.status.Pass? && m2.status.Pass?
      && EnumerateAll(Unix, m2.state) == ["test1", "test2"]
      && Exists(Unix, m2.state, "test1") && Exists(Unix, m2.state, "test2")
  {
    TestNamesNormal();
    CreateTwoInOrder(Unix, "test1", "test2");
  }

  /** "test1" and "test2" are already normalized. */
  lemma TestNamesNormal()
    ensures Normalize(Unix, "test1") == "test1" && Normalize(Unix, "test2") == "test2"
  {
  }

  // The path guard, as the evident intent would have it: a null or empty
  // path raises ArgumentNullException before anything else.

  /** Create with the path guard testing the argument. */
  function CreateChecked(p: Platform, m: MemoryLocator, path: string): (r: Step<MemoryLocator>)
    ensures path == [] ==> r == Step(m, Fail(ArgumentNull("path")))
    ensures path != [] ==> r == Create(p, m, path)
  {
    if path == [] then Step(m, Fail(ArgumentNull("path"))) else Create(p, m, path)
  }

  /** Write with the path guard testing the argument. */
  function WriteChecked(p: Platform, m: MemoryLocator, path: string, data: Option<Bytes>): (r: Step<MemoryLocator>)
    ensures path == [] ==> r == Step(m, Fail(ArgumentNull("path")))
    ensures path != [] ==> r == Write(p, m, path, data)
  {
    if path == [] then Step(m, Fail(ArgumentNull("path"))) else Write(p, m, path, data)
  }

  /** As written, Create("") succeeds and stores the key "". */
  lemma CreateEmptyPathIsStored(p: Platform)
    ensures Create(p, New(), []) == Step(MemoryLocator([Entry([], [])]), Pass)
    ensures Exists(p, Create(p, New(), []).state, [])
  {
    assert Normalize(p, []) == [];
    assert [] !in Keys(New());
    assert New().entries + [Entry([], [])] == [Entry([], [])];
  }

  /** With the guard on the argument, Create("") raises ArgumentNullException
      and leaves the store unchanged, for every store. */
  lemma CreateCheckedRejectsEmptyPath(p: Platform, m: MemoryLocator)
    ensures CreateChecked(p, m, []).status == Fail(ArgumentNull("path"))
    ensures CreateChecked(p, m, []).state == m
    ensures WriteChecked(p, m, [], Some([])).status == Fail(ArgumentNull("path"))
  {
  }
}

=== FILE: paths.dfy ===
/**
  Path algebra of the archive and memory locators (the "relative" flavour):
  normalization, case-insensitive equality and the literal prefix test, plus
  the two host path queries the factories rely on (extension lookup).

  The host conventions are parameters: the primary and alternate directory
  separators (equal on Unix hosts) and the per-character maps behind
  OrdinalIgnoreCase comparison and ToLowerInvariant.
 */
module Paths {

  datatype Platform = Platform(
    sep: char,             // Path.DirectorySeparatorChar
    alt: char,             // Path.AltDirectorySeparatorChar
    fold: char -> char,    // per-character map under OrdinalIgnoreCase
    lower: char -> char)   // per-character ToLowerInvariant

  predicate IsSeparator(p: Platform, c: char) {
    c == p.sep || c == p.alt
  }

  /** `s` with every `from` replaced by `to` (String.Replace(char, char)). */
  function Replace(s: string, from: char, to: char): (r: string)
    ensures |r| == |s|
    ensures forall i :: 0 <= i < |s| ==> r[i] == (if s[i] == from then to else s[i])
  {
    if s == [] then [] else [if s[0] == from then to else s[0]] + Replace(s[1..], from, to)
  }

  /** `s` without its leading run of `c` (String.TrimStart(char)). */
  function TrimStart(s: string, c: char): (r: string)
    ensures |r| <= |s| && r == s[|s| - |r|..]
    ensures forall i :: 0 <= i < |s| - |r| ==> s[i] == c
    ensures r == [] || r[0] != c
  {
    if s != [] && s[0] == c then TrimStart(s[1..], c) else s
  }

  /** Relative normalization (Utilities.PathNormalize): alternate separators
      become primary ones and leading separators are dropped; null and ""
      give "". Written as one pass that skips the leading separators of
      either kind and then replaces the alternate separators of the rest;
      NormalizeMatchesSource proves it equal to Replace followed by TrimStart. */
  function Normalize(p: Platform, path: string): (r: string)
    ensures path == [] ==> r == []
    ensures |r| <= |path|
    ensures r == [] || r[0] != p.sep
    decreases |path|
  {
    if path == [] then []
    else if IsSeparator(p, path[0]) then Normalize(p, path[1..])
    else Replace(path, p.alt, p.sep)
  }

  /** The shape of a relative normal form of `path`: a suffix of `path` with
      alternate separators replaced, whose dropped prefix is all separators
      and whose first character is not a separator. */
  ghost predicate IsRelativeForm(p: Platform, path: string, q: string) {
    && |q| <= |path|
    && q == Replace(path, p.alt, p.sep)[|path| - |q|..]
    && (forall i :: 0 <= i < |path| - |q| ==> IsSeparator(p, path[i]))
    && (q == [] || q[0] != p.sep)
  }

  lemma {:induction false} ReplaceTail(s: string, from: char, to: char)
    requires s != []
    ensures Replace(s, from, to)[1..] == Replace(s[1..], from, to)
  {
  }

  /** Normalize has the relative shape, and keeps no alternate separator. */
  lemma {:induction false} NormalizeShape(p: Platform, path: string)
    ensures IsRelativeForm(p, path, Normalize(p, path))
    ensures p.alt != p.sep ==> forall i :: 0 <= i < |Normalize(p, path)| ==> Normalize(p, path)[i] != p.alt
    decreases |path|
  {
    if path != [] && IsSeparator(p, path[0]) {
      NormalizeShape(p, path[1..]);
      ReplaceTail(path, p.alt, p.sep);
      var r := Normalize(p, path);
      assert Replace(path, p.alt, p.sep)[|path| - |r|..] == Replace(path[1..], p.alt, p.sep)[|path| - 1 - |r|..];
      assert forall i :: 1 <= i < |path| - |r| ==> path[i] == path[1..][i - 1];
    }
  }

  /** At most one string has the relative shape of a given path. */
  lemma RelativeFormUnique(p: Platform, path: string, q1: string, q2: string)
    requires IsRelativeForm(p, path, q1) && IsRelativeForm(p, path, q2)
    ensures q1 == q2
  {
    assert |q1| == |q2|;
  }

  /** The shape determines the result: any string of that shape is Normalize(path). */
  lemma NormalizeUnique(p: Platform, path: string, q: string)
    requires IsRelativeForm(p, path, q)
    ensures q == Normalize(p, path)
  {
    NormalizeShape(p, path);
    RelativeFormUnique(p, path, q, Normalize(p, path));
  }

  /** Normalize is exactly the source's pipeline: replace the alternate
      separator, then trim the leading primary separators. */
  lemma NormalizeMatchesSource(p: Platform, path: string)
    ensures Normalize(p, path) == (if path == [] then [] else TrimStart(Replace(path, p.alt, p.sep), p.sep))
  {
    if path != [] {
      var rep := Replace(path, p.alt, p.sep);
      var t := TrimStart(rep, p.sep);
      assert forall i :: 0 <= i < |path| - |t| ==> rep[i] == p.sep;
      NormalizeUnique(p, path, t);
    }
  }

  /** A string is its own normal form iff it has no leading separator and no
      alternate separator (when that differs from the primary one). */
  lemma {:induction false} NormalFormIff(p: Platform, s: string)
    ensures Normalize(p, s) == s <==>
      ((s == [] || s[0] != p.sep) && (p.alt == p.sep || forall i :: 0 <= i < |s| ==> s[i] != p.alt))
  {
    NormalizeShape(p, s);
    if (s == [] || s[0] != p.sep) && (p.alt == p.sep || forall i :: 0 <= i < |s| ==> s[i] != p.alt) {
      if s != [] {
        assert !IsSeparator(p, s[0]);
        assert Replace(s, p.alt, p.sep) == s;
      }
    }
  }

  lemma NormalizeIdempotent(p: Platform, path: string)
    ensures Normalize(p, Normalize(p, path)) == Normalize(p, path)
  {
    NormalizeShape(p, path);
    NormalFormIff(p, Normalize(p, path));
  }

  /** A path made only of separators normalizes to "". */
  lemma {:induction false} SeparatorsOnlyNormalizeEmpty(p: Platform, path: string)
    requires forall i :: 0 <= i < |path| ==> IsSeparator(p, path[i])
    ensures Normalize(p, path) == []
    decreases |path|
  {
    if path != [] {
      SeparatorsOnlyNormalizeEmpty(p, path[1..]);
    }
  }

  /** `s` mapped through the OrdinalIgnoreCase character map. */
  function Fold(p: Platform, s: string): (r: string)
    ensures |r| == |s|
  {
    if s == [] then [] else [p.fold(s[0])] + Fold(p, s[1..])
  }

  lemma {:induction false} FoldPointwise(p: Platform, s: string)
    ensures forall i :: 0 <= i < |s| ==> Fold(p, s)[i] == p.fold(s[i])
  {
    if s != [] {
      FoldPointwise(p, s[1..]);
    }
  }

  /** `s` under the per-character ToLowerInvariant map. */
  function Lower(p: Platform, s: string): (r: string)
    ensures |r| == |s|
  {
    if s == [] then [] else [p.lower(s[0])] + Lower(p, s[1..])
  }

  lemma {:induction false} LowerPointwise(p: Platform, s: string)
    ensures forall i :: 0 <= i < |s| ==> Lower(p, s)[i] == p.lower(s[i])
  {
    if s != [] {
      LowerPointwise(p, s[1..]);
    }
  }

  /** `y` is a character prefix of `x` (String.StartsWith, ordinal). */
  predicate IsPrefix(y: string, x: string) {
    y == [] || (x != [] && x[0] == y[0] && IsPrefix(y[1..], x[1..]))
  }

  lemma {:induction false} IsPrefixMeaning(y: string, x: string)
    ensures IsPrefix(y, x) <==> |y| <= |x| && x[..|y|] == y
  {
    if y != [] && x != [] {
      IsPrefixMeaning(y[1..], x[1..]);
      if |y| <= |x| && x[..|y|] == y {
        assert x[1..][..|y| - 1] == y[1..];
      }
      if IsPrefix(y, x) {
        assert x[..|y|] == [x[0]] + x[1..][..|y| - 1];
      }
    }
  }

  /** Utilities.PathEquals: normalized forms equal under OrdinalIgnoreCase. */
  predicate PathEquals(p: Platform, a: string, b: string) {
    Fold(p, Normalize(p, a)) == Fold(p, Normalize(p, b))
  }

  /** Utilities.PathStartsWith: the normalized `prefix` is a literal,
      OrdinalIgnoreCase character prefix of the normalized `path`. */
  predicate PathStartsWith(p: Platform, path: string, prefix: string) {
    IsPrefix(Fold(p, Normalize(p, prefix)), Fold(p, Normalize(p, path)))
  }

  lemma PathEqualsMeaning(p: Platform, a: string, b: string)
    ensures PathEquals(p, a, b) <==>
      var x, y := Normalize(p, a), Normalize(p, b);
      |x| == |y| && forall i :: 0 <= i < |x| ==> p.fold(x[i]) == p.fold(y[i])
  {
    var x, y := Normalize(p, a), Normalize(p, b);
    FoldPointwise(p, x);
    FoldPointwise(p, y);
    if |x| == |y| && forall i :: 0 <= i < |x| ==> p.fold(x[i]) == p.fold(y[i]) {
      assert Fold(p, x) == Fold(p, y);
    }
  }

  lemma PathStartsWithMeaning(p: Platform, path: string, prefix: string)
    ensures PathStartsWith(p, path, prefix) <==>
      var x, y := Normalize(p, path), Normalize(p, prefix);
      |y| <= |x| && forall i :: 0 <= i < |y| ==> p.fold(x[i]) == p.fold(y[i])
  {
    var x, y := Normalize(p, path), Normalize(p, prefix);
    FoldPointwise(p, x);
    FoldPointwise(p, y);
    IsPrefixMeaning(Fold(p, y), Fold(p, x));
    if |y| <= |x| && forall i :: 0 <= i < |y| ==> p.fold(x[i]) == p.fold(y[i]) {
      assert Fold(p, x)[..|y|] == Fold(p, y);
    }
  }

  lemma PathEqualsEquivalence(p: Platform, a: string, b: string, c: string)
    ensures PathEquals(p, a, a)
    ensures PathEquals(p, a, b) == PathEquals(p, b, a)
    ensures PathEquals(p, a, b) && PathEquals(p, b, c) ==> PathEquals(p, a, c)
  {
  }

  /** Comparing against an already normalized path changes nothing. */
  lemma PathEqualsNormalizeLeft(p: Platform, a: string, b: string)
    ensures PathEquals(p, a, b) == PathEquals(p, Normalize(p, a), b)
  {
    NormalizeIdempotent(p, a);
  }

  lemma PathStartsWithNormalizeLeft(p: Platform, a: string, b: string)
    ensures PathStartsWith(p, a, b) == PathStartsWith(p, Normalize(p, a), b)
  {
    NormalizeIdempotent(p, a);
  }

  /** An empty (or null) root selects every path. */
  lemma PathStartsWithEmptyRoot(p: Platform, path: string)
    ensures PathStartsWith(p, path, [])
  {
  }

  lemma PathEqualsImpliesStartsWith(p: Platform, a: string, b: string)
    requires PathEquals(p, a, b)
    ensures PathStartsWith(p, a, b)
  {
    var x := Fold(p, Normalize(p, a));
    IsPrefixMeaning(x, x);
  }

  /** The keys of `ks`, in order, that pass PathStartsWith against `root`. */
  function SelectUnder(p: Platform, ks: seq<string>, root: string): (r: seq<string>)
    ensures |r| <= |ks|
    ensures forall k :: k in r <==> k in ks && PathStartsWith(p, k, root)
  {
    if ks == [] then []
    else
      assert ks == [ks[0]] + ks[1..];
      (if PathStartsWith(p, ks[0], root) then [ks[0]] else []) + SelectUnder(p, ks[1..], root)
  }

  lemma {:induction false} SelectUnderAppend(p: Platform, ks: seq<string>, k: string, root: string)
    ensures SelectUnder(p, ks + [k], root) == SelectUnder(p, ks, root) + (if PathStartsWith(p, k, root) then [k] else [])
  {
    var tail := if PathStartsWith(p, k, root) then [k] else [];
    if ks == [] {
      assert SelectUnder(p, [k], root) == tail + SelectUnder(p, [], root);
    } else {
      var head := if PathStartsWith(p, ks[0], root) then [ks[0]] else [];
      assert (ks + [k])[0] == ks[0];
      assert (ks + [k])[1..] == ks[1..] + [k];
      SelectUnderAppend(p, ks[1..], k, root);
      calc {
        SelectUnder(p, ks + [k], root);
        head + SelectUnder(p, ks[1..] + [k], root);
        head + (SelectUnder(p, ks[1..], root) + tail);
        (head + SelectUnder(p, ks[1..], root)) + tail;
        SelectUnder(p, ks, root) + tail;
      }
    }
  }

  lemma {:induction false} SelectUnderEmptyRoot(p: Platform, ks: seq<string>)
    ensures SelectUnder(p, ks, []) == ks
  {
    if ks != [] {
      PathStartsWithEmptyRoot(p, ks[0]);
      SelectUnderEmptyRoot(p, ks[1..]);
    }
  }

  // Path.HasExtension and Path.GetExtension, as .NET defines them: scan back
  // from the end; a '.' before any directory separator starts the extension
  // unless it is the last character.

  /** Path.GetExtension over `path[..i]` scanned from index i - 1 down. */
  function ExtensionBefore(p: Platform, path: string, i: nat): (r: string)
    requires i <= |path|
    decreases i
  {
    if i == 0 then []
    else if path[i - 1] == '.' then (if i == |path| then [] else path[i - 1..])
    else if IsSeparator(p, path[i - 1]) then []
    else ExtensionBefore(p, path, i - 1)
  }

  /** The extension as Path.GetExtension returns it ("" when none). */
  function Extension(p: Platform, path: string): (r: string)
    ensures r == [] || (2 <= |r| <= |path| && r[0] == '.' && r == path[|path| - |r|..])
    ensures r != [] ==> forall j :: |path| - |r| < j < |path| ==> path[j] != '.' && !IsSeparator(p, path[j])
  {
    ExtensionShape(p, path, |path|);
    ExtensionBefore(p, path, |path|)
  }

  lemma {:induction false} ExtensionShape(p: Platform, path: string, i: nat)
    requires i <= |path|
    requires forall j :: i <= j < |path| ==> path[j] != '.' && !IsSeparator(p, path[j])
    ensures var r := ExtensionBefore(p, path, i);
      r == [] || (2 <= |r| <= |path| && r[0] == '.' && r == path[|path| - |r|..] &&
                  forall j :: |path| - |r| < j < |path| ==> path[j] != '.' && !IsSeparator(p, path[j]))
  {
    if i > 0 && path[i - 1] != '.' && !IsSeparator(p, path[i - 1]) {
      ExtensionShape(p, path, i - 1);
    }
  }

  /** Path.HasExtension over `path[..i]`, its own backwards scan. */
  predicate HasExtensionBefore(p: Platform, path: string, i: nat)
    requires i <= |path|
    decreases i
  {
    if i == 0 then false
    else if path[i - 1] == '.' then i != |path|
    else if IsSeparator(p, path[i - 1]) then false
    else HasExtensionBefore(p, path, i - 1)
  }

  predicate HasExtension(p: Platform, path: string) {
    HasExtensionBefore(p, path, |path|)
  }

  /** The two host queries agree: a path has an extension exactly when
      GetExtension returns a non-empty string. */
  lemma HasExtensionIffExtension(p: Platform, path: string)
    ensures HasExtension(p, path) <==> Extension(p, path) != []
  {
    ExtensionAgree(p, path, |path|);
  }

  lemma {:induction false} ExtensionAgree(p: Platform, path: string, i: nat)
    requires i <= |path|
    ensures HasExtensionBefore(p, path, i) <==> ExtensionBefore(p, path, i) != []
    decreases i
  {
    if i > 0 && path[i - 1] != '.' && !IsSeparator(p, path[i - 1]) {
      ExtensionAgree(p, path, i - 1);
    }
  }

  /** A path has an extension iff some '.' that is not its last character
      has no '.' or separator after it. */
  lemma {:induction false} HasExtensionMeaning(p: Platform, path: string)
    ensures HasExtension(p, path) <==>
      exists k :: 0 <= k < |path| - 1 && path[k] == '.' &&
        forall j :: k < j < |path| ==> path[j] != '.' && !IsSeparator(p, path[j])
  {
    HasExtensionIffExtension(p, path);
    var r := Extension(p, path);
    if r != [] {
      var k := |path| - |r|;
      assert path[k] == r[0] == '.';
    } else {
      if exists k :: 0 <= k < |path| - 1 && path[k] == '.' &&
          forall j :: k < j < |path| ==> path[j] != '.' && !IsSeparator(p, path[j]) {
        var k :| 0 <= k < |path| - 1 && path[k] == '.' &&
          forall j :: k < j < |path| ==> path[j] != '.' && !IsSeparator(p, path[j]);
        ExtensionFound(p, path, |path|, k);
      }
    }
  }

  lemma {:induction false} ExtensionFound(p: Platform, path: string, i: nat, k: nat)
    requires k < i <= |path| && k < |path| - 1 && path[k] == '.'
    requires forall j :: k < j < |path| ==> path[j] != '.' && !IsSeparator(p, path[j])
    ensures ExtensionBefore(p, path, i) == path[k..]
    decreases i
  {
    if i - 1 != k {
      ExtensionFound(p, path, i - 1, k);
    }
  }

  // Concrete hosts, with ASCII-only case maps, for worked examples.

  function AsciiUpper(c: char): char {
    if 'a' <= c <= 'z' then (c as int - 32) as char else c
  }

  function AsciiLower(c: char): char {
    if 'A' <= c <= 'Z' then (c as int + 32) as char else c
  }

  const Windows: Platform := Platform('\\', '/', AsciiUpper, AsciiLower)
  const Unix: Platform := Platform('/', '/', AsciiUpper, AsciiLower)

  /** Equality ignores case and leading or alternate separators. */
  lemma PathEqualsIgnoresCaseExample()
    ensures PathEquals(Windows, "/A/b.txt", "a\\B.TXT")
  {
    NormalizeExampleRooted();
    NormalizeExampleBackslash();
    FoldExample("A\\b.txt");
    FoldExample("a\\B.TXT");
  }

  lemma FoldExample(s: string)
    requires s == "A\\b.txt" || s == "a\\B.TXT"
    ensures Fold(Windows, s) == "A\\B.TXT"
  {
    FoldPointwise(Windows, s);
  }

  lemma NormalizeExampleRooted()
    ensures Normalize(Windows, "/A/b.txt") == "A\\b.txt"
  {
  }

  lemma NormalizeExampleBackslash()
    ensures Normalize(Windows, "a\\B.TXT") == "a\\B.TXT"
  {
  }

  /** The prefix test is not segment-aware: "ab" selects "abc/x". */
  lemma PathStartsWithIsLiteralExample()
    ensures PathStartsWith(Unix, "abc/x", "ab")
  {
    assert Replace("abc/x", '/', '/') == "abc/x";
    assert Normalize(Unix, "abc/x") == "abc/x";
    assert Replace("ab", '/', '/') == "ab";
    assert Normalize(Unix, "ab") == "ab";
    assert Fold(Unix, "abc/x")[..2] == Fold(Unix, "ab");
  }
}

=== FILE: writable_factory.dfy ===
/**
  WritableFileLocatorFactory: picks the writable locator for a root by its
  extension (".zip" and ".gz", in any case, are archives; no extension is a
  host directory; any other extension is refused), and builds writable
  archives with an explicit configuration. The directory writer is not part
  of this model beyond its constructor's check that the directory exists,
  and is named by its root.
 */
module WritableFileLocatorFactory {
  import opened Errors
  import opened Paths
  import opened Formats
  import ArchiveView
  import ArchiveWriter
  import FileLocatorFactory

  datatype WritableLocator =
    | ArchiveWriting(w: ArchiveWriter.WritableArchive)
    | DirectoryWriting(root: string)

  /** What the file at a host path holds: None when it is missing or empty,
      otherwise the result of opening it as an archive. */
  type Existing = string -> Option<Result<seq<ArchiveView.ArchiveEntry>>>

  const ZipConfig: WriterConfig := WriterConfig(Zip, Deflate, BestCompression)
  const GZipConfig: WriterConfig := WriterConfig(GZip, GZipCompression, Default)

  /** The staging writable archive at `root`, as a factory result. */
  function OpenArchiveAt(p: Platform, root: string, existing: Existing, config: WriterConfig): (r: Result<WritableLocator>)
    ensures r.Ok? <==> ArchiveWriter.OpenAt(p, existing(root), config).Ok?
    ensures r.Err? ==> r.error == ArchiveWriter.OpenAt(p, existing(root), config).error
    ensures r.Ok? ==> r.value.ArchiveWriting? && r.value.w.config == config && ArchiveWriter.Valid(p, r.value.w)
  {
    match ArchiveWriter.OpenAt(p, existing(root), config)
    case Ok(w) => Ok(ArchiveWriting(w))
    case Err(e) => Err(e)
  }

  /** Create(root): null or "" throws ArgumentNullException; the extension,
      lower-cased, picks Zip/Deflate/BestCompression for ".zip" and
      GZip/GZip/Default for ".gz"; no extension is a host directory, which
      must exist (DirectoryNotFoundException otherwise); any other extension
      throws NotSupportedException. */
  function Create(p: Platform, root: string, existing: Existing, dirs: FileLocatorFactory.Directories)
    : (r: Result<WritableLocator>)
    ensures root == [] ==> r == Err(ArgumentNull("root"))
    ensures root != [] && Extension(p, root) == [] && dirs(root) ==> r == Ok(DirectoryWriting(root))
    ensures root != [] && Extension(p, root) == [] && !dirs(root) ==> r == Err(DirectoryNotFound)
    ensures root != [] && Extension(p, root) != [] &&
            Lower(p, Extension(p, root)) != ".zip" && Lower(p, Extension(p, root)) != ".gz"
            ==> r == Err(NotSupported)
    ensures r.Ok? && r.value.ArchiveWriting? ==>
      && Extension(p, root) != []
      && (Lower(p, Extension(p, root)) == ".zip" ==> r.value.w.config == ZipConfig)
      && (Lower(p, Extension(p, root)) == ".gz" ==> r.value.w.config == GZipConfig)
    ensures root != [] && Lower(p, Extension(p, root)) == ".zip" ==>
      var o := ArchiveWriter.OpenAt(p, existing(root), ZipConfig);
      && (r.Ok? <==> o.Ok?)
      && (r.Ok? ==> r.value == ArchiveWriting(o.value))
      && (r.Err? ==> r.error == o.error)
    ensures root != [] && Lower(p, Extension(p, root)) == ".gz" ==>
      var o := ArchiveWriter.OpenAt(p, existing(root), GZipConfig);
      && (r.Ok? <==> o.Ok?)
      && (r.Ok? ==> r.value == ArchiveWriting(o.value))
      && (r.Err? ==> r.error == o.error)
  {
    if root == [] then Err(ArgumentNull("root"))
    else
      var ext := Extension(p, root);
      if ext != [] then
        var key := Lower(p, ext);
        if key == ".zip" then OpenArchiveAt(p, root, existing, ZipConfig)
        else if key == ".gz" then OpenArchiveAt(p, root, existing, GZipConfig)
        else Err(NotSupported)
      else if dirs(root) then Ok(DirectoryWriting(root))
      else Err(DirectoryNotFound)
  }

  /** CreateArchive(root, archiveType, compressionType): the level is the
      codec's default. */
  function CreateArchiveAt(p: Platform, root: string, t: ArchiveType, c: CompressionType, existing: Existing)
    : (r: Result<WritableLocator>)
    ensures root == [] ==> r == Err(ArgumentNull("root"))
    ensures r.Ok? ==> r.value.ArchiveWriting? && r.value.w.config == WriterConfig(t, c, Default)
    ensures root != [] && existing(root).None? ==>
      r.Ok? && r.value.w.log == [] && r.value.w.writer && r.value.w.fileStream
    ensures root != [] ==>
      var o := ArchiveWriter.OpenAt(p, existing(root), WriterConfig(t, c, Default));
      && (r.Ok? <==> o.Ok?)
      && (r.Ok? ==> r.value == ArchiveWriting(o.value))
      && (r.Err? ==> r.error == o.error)
  {
    if root == [] then Err(ArgumentNull("root"))
    else OpenArchiveAt(p, root, existing, WriterConfig(t, c, Default))
  }

  /** CreateArchive(root, archiveType, compressionLevel): the compression is
      Deflate. */
  function CreateArchiveAtLevel(p: Platform, root: string, t: ArchiveType, level: CompressionLevel, existing: Existing)
    : (r: Result<WritableLocator>)
    ensures root == [] ==> r == Err(ArgumentNull("root"))
    ensures r.Ok? ==> r.value.ArchiveWriting? && r.value.w.config == WriterConfig(t, Deflate, level)
    ensures root != [] && existing(root).None? ==>
      r.Ok? && r.value.w.log == [] && r.value.w.writer && r.value.w.fileStream
    ensures root != [] ==>
      var o := ArchiveWriter.OpenAt(p, existing(root), WriterConfig(t, Deflate, level));
      && (r.Ok? <==> o.Ok?)
      && (r.Ok? ==> r.value == ArchiveWriting(o.value))
      && (r.Err? ==> r.error == o.error)
  {
    if root == [] then Err(ArgumentNull("root"))
    else OpenArchiveAt(p, root, existing, WriterConfig(t, Deflate, level))
  }

  /** CreateArchive(stream, archiveType, compressionType): a null stream
      throws ArgumentNullException; otherwise an empty writer on the
      caller's stream, which it does not own. */
  function CreateArchiveOn(stream: Option<Bytes>, t: ArchiveType, c: CompressionType): (r: Result<WritableLocator>)
    ensures stream.None? <==> r == Err(ArgumentNull("root"))
    ensures r.Ok? ==> r.value.ArchiveWriting? && r.value.w.config == WriterConfig(t, c, Default)
    ensures r.Ok? ==> r.value.w.log == [] && r.value.w.writer && !r.value.w.fileStream
  {
    if stream.None? then Err(ArgumentNull("root"))
    else Ok(ArchiveWriting(ArchiveWriter.OpenOnStream(WriterConfig(t, c, Default))))
  }

  /** CreateArchive(stream, archiveType, compressionLevel): the compression
      is Deflate. */
  function CreateArchiveOnLevel(stream: Option<Bytes>, t: ArchiveType, level: CompressionLevel): (r: Result<WritableLocator>)
    ensures stream.None? <==> r == Err(ArgumentNull("root"))
    ensures r.Ok? ==> r.value.ArchiveWriting? && r.value.w.config == WriterConfig(t, Deflate, level)
    ensures r.Ok? ==> r.value.w.log == [] && r.value.w.writer && !r.value.w.fileStream
  {
    if stream.None? then Err(ArgumentNull("root"))
    else Ok(ArchiveWriting(ArchiveWriter.OpenOnStream(WriterConfig(t, Deflate, level))))
  }

  /** Create on a ".zip" root (any case) is CreateArchive(root, Zip,
      BestCompression), and on a ".gz" root it is CreateArchive(root, GZip,
      GZip). */
  lemma ExtensionShortcuts(p: Platform, root: string, existing: Existing, dirs: FileLocatorFactory.Directories)
    requires Extension(p, root) != []
    ensures Lower(p, Extension(p, root)) == ".zip" ==>
      Create(p, root, existing, dirs) == CreateArchiveAtLevel(p, root, Zip, BestCompression, existing)
    ensures Lower(p, Extension(p, root)) == ".gz" ==>
      Create(p, root, existing, dirs) == CreateArchiveAt(p, root, GZip, GZipCompression, existing)
  {
  }

  /** The read and the writable factories agree on which roots are host
      directories: exactly the non-empty roots without an extension that name
      an existing directory; such a root naming no directory makes both throw
      DirectoryNotFoundException. */
  lemma DirectoryIffNoExtension(p: Platform, root: string, existing: Existing, dirs: FileLocatorFactory.Directories,
                                host: FileLocatorFactory.HostArchive, decode: FileLocatorFactory.Decoder)
    ensures Create(p, root, existing, dirs) == Ok(DirectoryWriting(root)) <==>
      FileLocatorFactory.Create(p, root, host, decode, dirs) == Ok(FileLocatorFactory.DirectoryReader(root))
    ensures Create(p, root, existing, dirs) == Ok(DirectoryWriting(root)) <==>
      root != [] && !HasExtension(p, root) && dirs(root)
    ensures root != [] && !HasExtension(p, root) && !dirs(root) ==>
      && Create(p, root, existing, dirs) == Err(DirectoryNotFound)
      && FileLocatorFactory.Create(p, root, host, decode, dirs) == Err(DirectoryNotFound)
  {
    HasExtensionIffExtension(p, root);
  }

  /** CreateArchive on a root that already holds an archive appends to it:
      when the file holds exactly a valid, distinguishable log, the new
      writer starts from that log. */
  lemma ReopenKeepsContent(p: Platform, root: string, t: ArchiveType, c: CompressionType,
                           existing: Existing, w: ArchiveWriter.WritableArchive)
    requires root != [] && ArchiveWriter.Valid(p, w) && ArchiveWriter.Distinguishable(p, w.log)
    requires existing(root) == Some(Ok(ArchiveWriter.AsEntries(w.log)))
    ensures CreateArchiveAt(p, root, t, c, existing).Ok?
    ensures CreateArchiveAt(p, root, t, c, existing).value.w.log == w.log
  {
    ArchiveWriter.Restage(p, w, WriterConfig(t, c, Default));
  }

  /** Two passes of CreateArchive on one file, each creating one file: the
      first starts from the empty temporary file, the second from the archive
      the first left, and the reader then counts two files. */
  lemma TwoPassesOnOneFile(p: Platform, root: string, t: ArchiveType, c: CompressionType,
                           before: Existing, after: Existing, a: string, b: string)
    requires root != [] && before(root).None?
    requires Normalize(p, a) != [] && Normalize(p, b) != [] && !PathEquals(p, a, b)
    requires after(root) == Some(Ok(ArchiveWriter.AsEntries([ArchiveWriter.Written(Normalize(p, a), [0])])))
    ensures var first := CreateArchiveAt(p, root, t, c, before);
      && first.Ok?
      && var s1 := ArchiveWriter.Create(p, first.value.w, a);
      && s1.status.Pass?
      && s1.state.log == [ArchiveWriter.Written(Normalize(p, a), [0])]
      && var second := CreateArchiveAt(p, root, t, c, after);
      && second.Ok?
      && var s2 := ArchiveWriter.Create(p, second.value.w, b);
      && s2.status.Pass?
      && |ArchiveView.ListFiles(p, ArchiveWriter.AsEntries(s2.state.log), [])| == 2
  {
    var config := WriterConfig(t, c, Default);
    ArchiveWriter.TwoSessions(p, a, b, config);
    assert CreateArchiveAt(p, root, t, c, before).value.w == ArchiveWriter.OpenAt(p, None, config).value;
    var s1 := ArchiveWriter.Create(p, ArchiveWriter.OpenAt(p, None, config).value, a);
    assert CreateArchiveAt(p, root, t, c, after).value.w
      == ArchiveWriter.OpenAt(p, Some(Ok(ArchiveWriter.AsEntries(s1.state.log))), config).value;
  }

  /** The extension is matched case-insensitively: "A.ZIP" on a new file is
      an empty Zip archive with BestCompression. */
  lemma UpperCaseZipExample(existing: Existing, dirs: FileLocatorFactory.Directories)
    requires existing("A.ZIP").None?
    ensures Create(Windows, "A.ZIP", existing, dirs).Ok?
    ensures Create(Windows, "A.ZIP", existing, dirs).value == ArchiveWriting(ArchiveWriter.OpenAt(Windows, None, ZipConfig).value)
    ensures Create(Windows, "A.ZIP", existing, dirs).value.w.config == ZipConfig
  {
    var s := "A.ZIP";
    ExtensionFound(Windows, s, |s|, 1);
    assert Extension(Windows, s) == ".ZIP";
    LowerPointwise(Windows, ".ZIP");
    assert Lower(Windows, ".ZIP") == ".zip";
  }

  /** Any extension other than ".zip" or ".gz" is refused, even one the
      archive codec can write: ".tar" throws NotSupportedException. */
  lemma TarNotSupported(existing: Existing, dirs: FileLocatorFactory.Directories)
    ensures Create(Windows, "x.tar", existing, dirs) == Err(NotSupported)
  {
    var s := "x.tar";
    ExtensionFound(Windows, s, |s|, 1);
    assert Extension(Windows, s) == ".tar";
    LowerPointwise(Windows, ".tar");
    assert Lower(Windows, ".tar") == ".tar";
  }
}
